=== FILE: README.md ===
# Cinescope in Dafny

Cinescope is a movie web app. A React client browses a public movie catalog
(TMDB) and keeps per-user lists. An Express/Mongoose backend stores users and
their lists. This project models the core of both halves as pure Dafny
functions over immutable data and proves what they promise.

- **Store** (`models.dfy`, module `Models`). `User` and `Movie` documents, each
  keyed by `_id`, with the unique indexes on `email` and `tmdbId`. `Valid`
  says what the schemas and indexes allow: required strings are non-empty,
  ids are consistent, and every list reference names a stored movie mirror.
- **Accounts** (`auth_controller.dfy`, module `AuthController`). Register and
  login. Password hashing is a `Hasher` parameter. The signed token is the
  claims it carries plus its `"24h"` lifetime.
- **User lists and profile** (`user_controller.dfy`, module `UserController`).
  Find-or-create of the local movie mirror, the three list additions
  (`$addToSet`, and `$pull` from currently watching for recently watched),
  removal from favorites, the list reads, and the profile read and update. A
  handler takes the authenticated user id, the route parameter, the catalog
  lookup and the clock. It returns the store after the call and the reply.
- **Sign-up form** (`signup_form.dfy`, module `SignupForm`). `validateForm`
  and the body `handleSubmit` posts. The email regular expression is stated
  as a ghost predicate and matched by a hand-written check.
- **Browsing helpers** (`browse.dfy`, module `Browse`). Helpers shared by the
  pages: title search, the "minecraft" filter, the 12-per-page slice,
  paging, picking a trailer, the country-to-region map, and the
  category-menu routes.
- **Pages**. `user_home.dfy` (`UserHome`, pages/userHome.jsx), `landing_page.dfy`
  (`LandingPage`, pages/index.js), `movie_list.dfy` (`MovieList`) and
  `movie_details.dfy` (`MovieDetails`) model each page's list state and its
  display rules.
- **Favorite toggle** (`favorite_toggle.dfy`, module `FavoriteToggle`). The
  heart button on the signed-in home page together with the two handlers it
  calls. This is where the first finding below is stated and corrected.
- **Profile form** (`profile_form.dfy`, module `ProfileForm`). The signed-in
  page's profile update and how it reads the handler's reply. The third
  finding below is stated and corrected here.

Shared pieces: `results.dfy` holds `Option`, `Result` and JavaScript
truthiness. `text.dfy` holds trimming, lower-casing, substring search,
`filter` and decimal formatting, each restricted to what the code needs.

Where the code and the service's written description disagree, the model
follows the code:
- A duplicate email is refused with status 400, not a conflict status.
- DELETE /favorites/:movieId does not resolve the catalog id against the
  mirrors. It uses the parameter as a mirror reference, which the first
  finding below shows.

## Model

| member | source | states |
|---|---|---|
| Models.EmailUnique | cinescope-backend/models/User.js:12-16 | in a valid store two users with the same email are the same user |
| Models.TmdbIdUnique | cinescope-backend/models/Movie.js:4-8 | in a valid store two mirrors with the same catalog id are the same mirror |
| Models.Populate | cinescope-backend/controllers/userController.js:127 | `populate` expands references in list order; when every reference resolves, the result has one movie per reference, and it never invents a movie |
| Models.ExpandsUnique | cinescope-backend/controllers/userController.js:127 | a list of references expands through the stored mirrors in exactly one way, so two populated replies of the same list are equal |
| Models.CastObjectId | cinescope-backend/models/User.js:25-28 | a route parameter casts to a reference exactly when it is 24 hexadecimal digits |
| Models.EmptyDb | cinescope-backend/models/User.js:3-37 | the empty store satisfies every schema and index constraint |
| AuthController.Register | cinescope-backend/controllers/authController.js:6-42 | a taken email gives 400 "User already exists" and changes nothing; an empty required field gives 500 "Server error"; otherwise 201, a fresh id, the hashed password stored, and every other user and mirror untouched |
| AuthController.Login | cinescope-backend/controllers/authController.js:45-86 | login succeeds exactly when the email is registered and the password matches its stored hash; the token carries the user's id and email and lives "24h"; the public user has no password; every failure is 401 "Invalid email or password" |
| AuthController.LoginFailuresIndistinguishable | cinescope-backend/controllers/authController.js:50-59 | an unknown email and a wrong password give the identical reply |
| AuthController.RegisterThenLogin | cinescope-backend/controllers/authController.js:17-69 | with a sound hasher, a successful registration is followed by a successful login as the user just created |
| AuthController.DuplicateRegisterKeepsUser | cinescope-backend/controllers/authController.js:11-14 | registering a taken email fails and leaves the stored user, hash included, unchanged |
| UserController.AddToSet | cinescope-backend/controllers/userController.js:88 | `$addToSet` appends the element only when absent; membership becomes old members plus the element |
| UserController.Pull | cinescope-backend/controllers/userController.js:111 | `$pull` removes every copy of the element and keeps the other elements in order and in number |
| UserController.PullUndoesAddToSet | cinescope-backend/controllers/userController.js:86-113 | pulling an element that an `$addToSet` just appended gives back the original list |
| UserController.MirrorOf | cinescope-backend/controllers/userController.js:74-82 | the mirror takes the catalog's id and title, and it passes the schema's required-field check exactly when the catalog gave a title |
| UserController.FindOrCreateMirror | cinescope-backend/controllers/userController.js:65-84 | an existing mirror is reused; otherwise the catalog is asked, and (the save-time date cast aside) the step fails exactly when the fetch fails, the title is missing or the returned id is already mirrored; a created mirror is new, keeps the store valid, keeps every stored mirror and changes nothing else |
| UserController.Attach | cinescope-backend/controllers/userController.js:86-96 | the list update succeeds exactly when the user exists; the reply is the whole updated list expanded in order and contains the movie; a missing user gives 500 and no change |
| UserController.AttachFound | cinescope-backend/controllers/userController.js:86-96 | for a stored user the `$addToSet` lands, the store stays valid, and the reply is the updated list expanded in order with the movie in it |
| UserController.AddToList | cinescope-backend/controllers/userController.js:60-100 | a list addition succeeds exactly when the mirror step succeeds and the user exists; it touches no other user; a failure keeps every user as it was |
| UserController.AddToFavorites | cinescope-backend/controllers/userController.js:60-100 | favorites grow by at most the one mirror and keep their old prefix; the other two lists are unchanged; failure is 500 "Error adding to favorites" |
| UserController.AddToRecentlyWatched | cinescope-backend/controllers/userController.js:138-182 | the mirror joins recently watched, after its old entries, and leaves currently watching; every other currently-watching entry stays; favorites are unchanged |
| UserController.RecentlyWatchedMoves | cinescope-backend/controllers/userController.js:164-172 | after the combined `$addToSet` and `$pull` the reference is in recently watched and not in currently watching |
| UserController.AddToCurrentlyWatching | cinescope-backend/controllers/userController.js:184-225 | the mirror joins currently watching; recently watched and favorites are unchanged |
| UserController.Inserted | cinescope-backend/controllers/userController.js:74-83 | saving a new mirror with a fresh id and catalog id keeps the store valid, adds exactly that mirror to the `tmdbId` index and leaves every user alone |
| UserController.ListGrows | cinescope-backend/controllers/userController.js:209-213 | `$addToSet` on favorites or currently watching keeps the old list as a prefix, adds at most the one reference, and leaves the other two lists alone |
| UserController.RemoveFromFavorites | cinescope-backend/controllers/userController.js:103-122 | the given reference is pulled from favorites, the user's timestamp moves to the call's time, and nothing else in the store changes; the reply is the remaining favorites expanded; a missing user gives 500 "Error removing from favorites" |
| UserController.PullFound | cinescope-backend/controllers/userController.js:108-118 | for a stored user the `$pull` lands, the store stays valid, and the reply is the remaining favorites expanded in order |
| UserController.RemoveFromFavoritesRoute | cinescope-backend/controllers/userController.js:105-113 | a parameter that is not a reference fails with 500 and changes nothing; otherwise the handler pulls that reference |
| UserController.GetFavorites | cinescope-backend/controllers/userController.js:124-136 | the reply is the favorites expanded in order, or 500 when the user is missing |
| UserController.GetCurrentlyWatching | cinescope-backend/controllers/userController.js:227-239 | the reply is currently watching expanded in order, or 500 when the user is missing |
| UserController.GetUserWatchHistory | cinescope-backend/controllers/userController.js:46-57 | the reply is the bare recently-watched references, or 404 "User not found" |
| UserController.GetUserProfile | cinescope-backend/controllers/userController.js:5-16 | the reply is every field of the user except the password, or 404 "User not found" |
| UserController.Merge | cinescope-backend/controllers/userController.js:28-30 | a truthy incoming value replaces the field; an absent or empty one keeps the old value |
| UserController.UpdateUserProfile | cinescope-backend/controllers/userController.js:18-44 | only first name, last name and country change, each only when the incoming value is truthy; the email is never changed; the timestamp moves to the call's time only when a field changed; the reply is the five public fields; a missing user gives 404 |
| UserController.Updated | cinescope-backend/controllers/userController.js:28-30 | each of first name, last name and country takes the incoming value exactly when it is truthy; no other field changes; the timestamp moves to the call's time when some field changed and otherwise the user is returned as it was; a user with its required fields keeps them non-empty |
| UserController.UpdatedValid | cinescope-backend/controllers/userController.js:28-32 | saving the merged user keeps the store valid: the email index and the movie references are untouched |
| UserController.UpdateProfileIdempotent | cinescope-backend/controllers/userController.js:28-32 | sending the same profile update again, at any later time, changes neither the store nor the reply |
| UserController.UpdatedTwice | cinescope-backend/controllers/userController.js:28-32 | merging the same update into an already merged user gives that user back, timestamp included |
| UserController.UpdateReplyMatchesProfile | cinescope-backend/controllers/userController.js:5-44 | the update succeeds exactly when a following GET /profile does, and its reply is that profile's five public fields |
| UserController.WatchedShowsInHistory | cinescope-backend/controllers/userController.js:138-182 | after a successful watched click, GET /watch-history returns the old history as a prefix, holds the mirror's reference, and that mirror has the clicked catalog id (or the id the catalog answered with) |
| UserController.AddToFavoritesIdempotent | cinescope-backend/controllers/userController.js:65-90 | favoriting the same catalog id twice leaves the favorites as the first call left them |
| UserController.AddReplyMatchesGet | cinescope-backend/controllers/userController.js:86-96 | the reply of a favorite addition equals what a following GET /favorites returns |
| SignupForm.IsEmail | cinescope-frontend/src/components/auth/SignupForm.jsx:33 | the hand-written check accepts exactly the strings the email regular expression matches |
| SignupForm.EmailShapeNeedsFirstAt | cinescope-frontend/src/components/auth/SignupForm.jsx:33 | a matching email splits at its first "@" into a plain local part and a plain domain with an inner dot |
| SignupForm.Check | cinescope-frontend/src/components/auth/SignupForm.jsx:30-37 | each field's message is set exactly when its rule fails: names and email blank after trimming, email not matching, password shorter than 8 UTF-16 code units, confirmation different, no country |
| SignupForm.ValidateForm | cinescope-frontend/src/components/auth/SignupForm.jsx:27-41 | the error object has a key for a field exactly when that field's rule fails, with the source's messages |
| SignupForm.FormValidIff | cinescope-frontend/src/components/auth/SignupForm.jsx:27-41 | the form is valid exactly when all six rules pass |
| Text.Utf16Length | cinescope-frontend/src/components/auth/SignupForm.jsx:35 | JavaScript's `length` counts UTF-16 code units: between one and two per character, exactly one each for text in the Basic Multilingual Plane, and zero only for the empty string |
| SignupForm.EmojiPasswordIsLongEnough | cinescope-frontend/src/components/auth/SignupForm.jsx:35 | a password of four characters outside the Basic Multilingual Plane has length 8 in UTF-16 code units and so passes the length rule |
| SignupForm.Submit | cinescope-frontend/src/components/auth/SignupForm.jsx:43-58 | a request is sent exactly for a valid form, and it carries the form without the confirmation |
| SignupForm.SubmittedFormRegisters | cinescope-frontend/src/components/auth/SignupForm.jsx:50-57 | a form the client sends with a new email always passes the server's schema and registers |
| Browse.Search | cinescope-frontend/src/pages/userHome.jsx:419-429 | a blank query shows every movie; otherwise exactly the movies whose lower-cased title contains the lower-cased query, in order; the same `handleSearch` appears in components/movies/MovieList.jsx:104-115 and pages/index.js:99-109 |
| Browse.SearchIdempotent | cinescope-frontend/src/pages/userHome.jsx:467-475 | searching the search result again for the same query changes nothing |
| Browse.DropMinecraft | cinescope-frontend/src/pages/index.js:70-72 | the filter keeps, in order, exactly the results whose title does not contain "minecraft" |
| Browse.First12 | cinescope-frontend/src/pages/userHome.jsx:204 | `slice(0, 12)` is the prefix of length min(12, n) |
| Browse.MergePage | cinescope-frontend/src/pages/userHome.jsx:203-216 | page 1 replaces the list; a later page appends to it |
| Browse.LoadMore | cinescope-frontend/src/pages/userHome.jsx:436-440 | load-more moves one page forward exactly when the last page is known and the page is below it; an unknown last page (`undefined`) never lets it move; the same `loadMoreMovies` appears in components/movies/MovieList.jsx:99-103 and pages/index.js:126-130 |
| Browse.LoadMoreBounded | cinescope-frontend/src/pages/userHome.jsx:436-440 | from a page in range, any number of presses stays within the last page and never goes back; with no known last page the page never moves |
| Browse.FirstTrailer | cinescope-frontend/src/pages/userHome.jsx:181 | `find` stops at the first YouTube trailer, and no earlier video is one |
| Browse.PickTrailer | cinescope-frontend/src/pages/userHome.jsx:181 | a trailer is picked exactly when some video is a YouTube trailer, and it is the first one |
| Browse.RegionCoversSignupCountries | cinescope-frontend/src/pages/userHome.jsx:147-154 | each country the signup form offers maps to its own region code; an inherited `Object.prototype` property name (such as "constructor") yields a non-empty text that is no region code; any other country maps to "" |
| Browse.CategorySlug | cinescope-frontend/src/pages/userHome.jsx:1146-1153 | "Romantic" becomes "romance"; an inherited `Object.prototype` property name (such as "toString") finds the inherited property, not its lower case; any other name outside the menu falls back to its own lower case |
| Browse.MenuPathsAreRoutes | cinescope-frontend/src/App.js:31-68 | every category the menus of both home pages offer leads to a route the router declares |
| UserHome.FetchMovies | cinescope-frontend/src/pages/userHome.jsx:194-223 | page 1 replaces the list with the first 12 results and features the first one; later pages append at most 12; the last page is taken from any parsed body, even one without results; a failure on page 1 or an unparsed body sets "Failed to load movies"; the lists never change on a failure |
| UserHome.MissingTotalStopsLoadMore | cinescope-frontend/src/pages/userHome.jsx:436-440 | a body without `total_pages` leaves the last page unknown, after which no number of load-more presses moves the page |
| UserHome.ListedWithoutTotalStopsLoadMore | cinescope-frontend/src/pages/userHome.jsx:200-216 | a page with results but no `total_pages` is still listed, and afterwards no number of load-more presses moves the page |
| UserHome.FetchKeepsSearchConsistent | cinescope-frontend/src/pages/userHome.jsx:466-476 | after any successful fetch the visible list is the current search applied to all loaded movies |
| UserHome.HandleSearch | cinescope-frontend/src/pages/userHome.jsx:419-429 | the visible list only holds loaded movies, and a blank query shows all of them |
| UserHome.FavoriteRequest | cinescope-frontend/src/pages/userHome.jsx:234-236 | the heart sends DELETE exactly when some favorite mirrors this catalog id, and POST otherwise |
| UserHome.WatchingRequest | cinescope-frontend/src/pages/userHome.jsx:280-282 | the currently-watching button sends POST whether or not the movie is already listed |
| UserHome.ToggleWatching | cinescope-frontend/src/pages/userHome.jsx:271-315 | a click leaves the store exactly as POST /currently-watching does, valid; on success the page takes the reply's list and is then in sync with GET /currently-watching; on failure it keeps its list and shows "Failed to remove from currently watching" when it listed the movie, else "Failed to add to currently watching" |
| UserHome.WatchingClickNeverRemoves | cinescope-frontend/src/pages/userHome.jsx:271-315 | starting in sync with the store, a click keeps every user, every stored list of every user keeps its old entries as a prefix, and every movie the page showed is still shown |
| UserHome.StoredListsGrow | cinescope-backend/controllers/userController.js:209-213 | POST /currently-watching keeps the set of users and, for every user and list, the old list as a prefix of the new one |
| UserHome.ShownStaysShown | cinescope-frontend/src/pages/userHome.jsx:292-299 | starting in sync, every movie on the page is still on it after the click, on success and on failure |
| UserHome.ReplyKeepsShown | cinescope-backend/controllers/userController.js:209-220 | a successful POST /currently-watching replies with every movie GET /currently-watching returned before |
| UserHome.UpdateFeatured | cinescope-frontend/src/pages/userHome.jsx:454-460 | only a movie with a title replaces the featured movie |
| UserHome.UpdateFeaturedKeepsTitle | cinescope-frontend/src/pages/userHome.jsx:454-460 | a featured movie with a title keeps one after any update, and repeating the same update changes nothing |
| LandingPage.FetchMovies | cinescope-frontend/src/pages/index.js:61-93 | the first 12 non-minecraft results replace the list (page 1) or are appended (later pages); the last page is taken from any parsed body, even one without results; the lists never change on a failure |
| LandingPage.FetchKeepsMinecraftOut | cinescope-frontend/src/pages/index.js:68-83 | starting from lists with no minecraft title, no fetch brings one in |
| LandingPage.UpdateFeatured | cinescope-frontend/src/pages/index.js:144-150 | a minecraft title is never featured; any other movie is |
| LandingPage.Breakpoints | cinescope-frontend/src/pages/index.js:174-175 | mobile and tablet never hold together, and one of them holds exactly below 1024 pixels |
| MovieList.RequestUrl | cinescope-frontend/src/components/movies/MovieList.jsx:57 | the URL is the catalog base, the endpoint, one separator ("&" when the endpoint has a "?", else "?") and the key-language-page tail |
| MovieList.NoQuestionMark | cinescope-frontend/src/components/movies/MovieList.jsx:57 | the key-language-page tail never contains "?", so the separator is the only "?" the client adds |
| MovieList.FetchMovies | cinescope-frontend/src/components/movies/MovieList.jsx:54-82 | a failed or empty response clears both lists; otherwise the non-minecraft results replace the list (page 1) or are appended, and the last page is the body's `total_pages`, unknown when missing |
| MovieList.FetchKeepsMinecraftOut | cinescope-frontend/src/components/movies/MovieList.jsx:68-73 | starting from lists with no minecraft title, no fetch brings one in |
| MovieList.BackTarget | cinescope-frontend/src/components/movies/MovieList.jsx:32-39 | the back button leads to "/userHome" exactly when the user is logged in, and always to a declared route |
| MovieDetails.RuntimeParts | cinescope-frontend/src/components/movies/MovieDetails.jsx:326 | hours times 60 plus the leftover minutes is the runtime, and the minutes are below 60 |
| MovieDetails.RuntimePartsUnique | cinescope-frontend/src/components/movies/MovieDetails.jsx:326 | no other hours-and-minutes split of a runtime satisfies those two facts |
| MovieDetails.RuntimeLabel | cinescope-frontend/src/components/movies/MovieDetails.jsx:324-329 | the corrected label is shown exactly for a present, non-zero runtime, as "{h}h {m}m" |
| MovieDetails.RuntimeRenderedAsWritten | cinescope-frontend/src/components/movies/MovieDetails.jsx:324-329 | as written, a zero runtime renders the text "0", and any other runtime renders as the corrected label does |
| MovieDetails.ZeroRuntimeShowsStrayText | cinescope-frontend/src/components/movies/MovieDetails.jsx:324-329 | the as-written header shows "0" for a zero runtime, and "0" is no hours-and-minutes label |
| MovieDetails.FirstField | cinescope-frontend/src/components/movies/MovieDetails.jsx:321 | `split('-')[0]` is the longest prefix without "-" |
| MovieDetails.ReleaseYear | cinescope-frontend/src/components/movies/MovieDetails.jsx:321 | the year is the text before the first "-", or "N/A" when the date is missing or that text is empty; it is never empty |
| MovieDetails.ReleaseYearOfIsoDate | cinescope-frontend/src/components/movies/MovieDetails.jsx:321 | a date "YYYY-..." shows "YYYY" |
| MovieDetails.BackgroundPath | cinescope-frontend/src/components/movies/MovieDetails.jsx:253 | the backdrop is used when truthy, else the poster |
| MovieDetails.BackgroundPathShowsAnImage | cinescope-frontend/src/components/movies/MovieDetails.jsx:253 | the background has an image path exactly when the movie has a backdrop or a poster |
| MovieDetails.OverviewText | cinescope-frontend/src/components/movies/MovieDetails.jsx:97 | the overview is shown when truthy, else the fixed fallback; the text is never empty |
| MovieDetails.DownloadTarget | cinescope-frontend/src/components/movies/MovieDetails.jsx:63-68 | a page opens exactly when there is a trailer key, and it is the YouTube watch URL for that key |
| MovieDetails.WatchKey | cinescope-frontend/src/components/movies/MovieDetails.jsx:65 | reading a key back from a URL succeeds exactly for URLs starting with the YouTube watch prefix, and prefix plus key is the URL |
| MovieDetails.DownloadTargetRoundTrip | cinescope-frontend/src/components/movies/MovieDetails.jsx:63-68 | the opened URL gives back exactly the trailer key it was built from |
| MovieDetails.DownloadOpensFirstTrailer | cinescope-frontend/src/components/movies/MovieDetails.jsx:63-68 | for videos holding a YouTube trailer with a key, the download button opens the watch page of the first such trailer, and no earlier video is a trailer |
| MovieDetails.OnResize | cinescope-frontend/src/components/movies/MovieDetails.jsx:16-22 | mobile exactly at 768 pixels or below; after a resize the trailer is never shown on a mobile width, a resize never opens it, and above 768 it stays as it was |
| MovieDetails.MobileThresholdsDiffer | cinescope-frontend/src/components/movies/MovieDetails.jsx:12 | at exactly 768 pixels the detail page counts as mobile while the landing page counts as tablet, and every width the landing page treats as mobile the detail page does too |
| Models.ExpandsPrefix | cinescope-backend/controllers/userController.js:209-220 | expanding a longer reference list, through a store that kept every mirror, keeps every movie the shorter list expanded to |
| FavoriteToggle.CatalogIdNeverCasts | cinescope-frontend/src/pages/userHome.jsx:235 | a catalog id written in decimal with fewer than 24 digits never casts to a reference |
| FavoriteToggle.ToggleAsWritten | cinescope-frontend/src/pages/userHome.jsx:225-269 | a click keeps the store valid and touches no other user; a DELETE click leaves the mirrors as they were |
| FavoriteToggle.AsWrittenDeleteKeepsFavorite | cinescope-backend/controllers/userController.js:105-113 | as written, a DELETE click on a favorite leaves the store and the page's list unchanged and shows "Failed to remove from favorites" |
| FavoriteToggle.AsWrittenRoundTripFails | cinescope-frontend/src/pages/userHome.jsx:225-269 | as written, after adding a favorite a second click neither changes the store nor un-highlights the heart |
| FavoriteToggle.MirrorRef | cinescope-backend/models/Movie.js:4-8 | the resolved reference is the only mirror with that catalog id |
| FavoriteToggle.NoMirrorLeft | cinescope-backend/controllers/userController.js:103-122 | pulling the resolved reference leaves no mirror of the catalog id in the reply |
| FavoriteToggle.RemoveFavoriteByTmdbId | cinescope-backend/controllers/userController.js:103-122 | the corrected removal leaves no favorite with that catalog id, keeps every other favorite in order and number, and otherwise fails as the original does |
| FavoriteToggle.Toggle | cinescope-frontend/src/pages/userHome.jsx:225-269 | with the corrected handler a DELETE click turns the heart off without an error |
| FavoriteToggle.AddedMirror | cinescope-backend/controllers/userController.js:60-100 | a POST click adds the mirror of the catalog id, which was absent, and turns the heart on |
| FavoriteToggle.MirrorNotFavorite | cinescope-frontend/src/pages/userHome.jsx:234-236 | when the page shows no favorite with this catalog id (so the heart sends POST), the user holds no reference to that id's mirror |
| FavoriteToggle.FirstClick | cinescope-frontend/src/pages/userHome.jsx:225-269 | the first click, seen through the page, appends the mirror and highlights the heart |
| FavoriteToggle.SecondClick | cinescope-frontend/src/pages/userHome.jsx:225-269 | with the corrected handler, the next click restores the previous references and shows them expanded |
| FavoriteToggle.SamePage | cinescope-frontend/src/pages/userHome.jsx:252-253 | a page showing the unchanged references through a store that kept every mirror is the page it was |
| FavoriteToggle.ToggleRoundTrip | cinescope-frontend/src/pages/userHome.jsx:225-269 | with the corrected handler, two clicks give back the original favorites, in the store and on the page |
| ProfileForm.BodyOf | cinescope-backend/controllers/userController.js:34-43 | the reply body carries the five public fields at the top level on success and the message on failure, and never a `user` key |
| ProfileForm.ShowAsWritten | cinescope-frontend/src/pages/userHome.jsx:364-405 | as written, a non-ok reply shows its message (or "Update failed"); an ok reply is saved only when it has a `user` key, and otherwise shows "User data not returned from server" |
| ProfileForm.Show | cinescope-frontend/src/pages/userHome.jsx:364-405 | read where the handler puts the fields, an ok reply is saved exactly when it carries them; a non-ok reply is reported as before |
| ProfileForm.Submit | cinescope-frontend/src/pages/userHome.jsx:364-405 | a handler failure shows "Failed to update profile: " with the handler's message |
| ProfileForm.SavedUpdateReportedFailed | cinescope-frontend/src/pages/userHome.jsx:386-388 | as written, an update the store saved is reported as "Failed to update profile: User data not returned from server" |
| ProfileForm.SavedUpdateShowsProfile | cinescope-frontend/src/pages/userHome.jsx:364-405 | with the corrected reading, a saved update shows exactly the public fields GET /profile then returns |

## Left out

- Network, storage and timing: HTTP, the database driver, `localStorage`, alerts, navigation side effects, scrolling and React rendering. Handlers and page functions take their inputs and return their results.
- The auth middleware is not part of this model. Handlers take the authenticated user id as a parameter. So the difference between `req.user.id` and `req.user._id` in the handlers is not modelled.
- Token signing, verification and expiry: the token is its claims plus the `"24h"` lifetime. Checking expiry needs a clock and the signing secret.
- bcrypt: salts and cost are not modelled. The `Hasher` parameter only promises that a password matches its own hash.
- Concurrency: handlers run one at a time. The find-or-create race and its duplicate-key failure are not modelled.
- Catalog ids are taken as already-numeric route parameters. A non-numeric parameter in an add handler (a cast failure, so 500) is not modelled.
- Models.CastObjectId: the driver's 12-byte raw-string form of an id is not modelled. Only the 24-hex-digit form is, which covers every decimal catalog id.
- Models.Populate: in a valid store every reference resolves. The dropping of dangling references is stated, but no handler reaches it.
- Browse.Region: an inherited property is printed the way V8 prints built-in functions (`function toString() { [native code] }`). Other engines may print it differently; the model only relies on the text being non-empty and no region code. The same holds for `Browse.CategorySlug`.
- Text: `trim` and `toLowerCase` are ASCII-only approximations of the JavaScript Unicode versions. `length` is modelled in UTF-16 code units by `Text.Utf16Length`.
- A rating's `vote_average` is carried as an optional real and never computed with. Display rounding (`toFixed`) is left out.
- A field missing from a JSON body or response is `None` or the empty string. The model does not tell `undefined`, `null` and "" apart beyond truthiness.
- A catalog result is taken to carry a `title`. A result without one is modelled with the title "", where the source throws in `movie.title.toLowerCase()`. In MovieList.jsx that throw reaches the `catch` and clears both lists; in index.js the `catch` only logs and the lists stay. The model keeps the movie in both. The searches, which call the same method, would throw as well.
- movieController.js, the routes and server.js, LoginForm.jsx and the per-genre category wrapper pages are not part of this model. The routes' paths appear only in `Browse.DeclaredRoutes`.
- The signed-in page's watch-history fetch and recently-watched click are not modelled as page state. They call GET /watch-history and POST /recently-watched, whose handlers are modelled above (`UserController.WatchedShowsInHistory` relates the two).
- The signed-in page's popular-in-country fetch is not modelled. It calls the movie catalog directly, not a handler of this service. Only its country-to-region map (`Browse.Region`) is.
- The profile-update form is modelled in `ProfileForm`. Its reading of the reply is the third finding below.
- UserController.FindOrCreateMirror: the save-time cast of `releaseDate` to a Date is not modelled. The catalog's date string is stored as given. An empty date becomes `null`; a date that does not parse makes `save()` throw, so the handler answers 500 where the model creates the mirror.
- UserController.MirrorOf: the mirror's schema check covers the required fields only. The Date cast above is not part of it.
- UserHome.FetchMovies: on a later page, a parsed body without `results` makes the deferred list updater throw while the page renders. That happens outside the fetch's `catch`, so no error is set; the model leaves the lists and the error as they were and does not follow the failed render.
- The favorites grid on the signed-in page passes the stored mirror documents to the heart. A mirror has `tmdbId` and no `id`, so there the heart reads as not favorited and a click sends POST /favorites/undefined, which the add handler answers with 500. `FavoriteToggle` models the heart of a catalog movie only (the popular grid and the featured banner), where the movie carries its catalog `id`.

## Findings

| source | as written | input that shows it | evidently intended | confidence | as-written member | corrected member |
|---|---|---|---|---|---|---|
| cinescope-backend/controllers/userController.js:105-113 | DELETE /favorites/:movieId pulls the route parameter as a mirror reference. The page sends the catalog id (userHome.jsx:235). The cast of a decimal catalog id fails, so the reply is 500 and the favorite stays | user favorites movie 603 (the mirror gets a fresh reference), then clicks the heart again: DELETE /favorites/603 | resolve the catalog id through the `tmdbId` index and pull that mirror's reference, so a second click removes the favorite | high, not executed | FavoriteToggle.AsWrittenRoundTripFails | FavoriteToggle.ToggleRoundTrip |
| cinescope-frontend/src/components/movies/MovieDetails.jsx:324-329 | `movieDetails.runtime && (...)` short-circuits to the number 0 for a zero runtime, and React renders it as the text "0" | a movie whose details report `runtime: 0` | show nothing when the runtime is zero | medium, not executed | MovieDetails.RuntimeRenderedAsWritten | MovieDetails.RuntimeLabel |
| cinescope-frontend/src/pages/userHome.jsx:386-388 | `handleProfileUpdate` rejects an ok reply without `data.user`. `updateUserProfile` (userController.js:34-40) replies with `_id`, `firstName`, `lastName`, `email` and `country` at the top level | a signed-in user changes their first name and saves: the store is updated, and the page shows "Failed to update profile: User data not returned from server" | read the updated user from the top level of the reply (or have the handler wrap it in `user`) | high, not executed | ProfileForm.SavedUpdateReportedFailed | ProfileForm.SavedUpdateShowsProfile |

=== FILE: auth_controller.dfy ===
/**
 * controllers/authController.js: registration and login.  Password hashing
 * and token signing are kept abstract: the hasher is a pair of functions of
 * which only `compare(p, hash(p))` is assumed, and a token is represented by
 * the claims it carries and its lifetime.
 */
module AuthController {
  import opened Results
  import opened Models

  /** bcrypt's `hash` and `compare`, salt and cost folded into the functions. */
  datatype Hasher = Hasher(hash: string -> string, compare: (string, string) -> bool)

  /** What the model relies on: a password matches its own hash, and a hash is never empty. */
  ghost predicate Sound(h: Hasher) {
    forall p :: h.compare(p, h.hash(p)) && h.hash(p) != ""
  }

  /** The POST /register body. */
  datatype RegisterBody = RegisterBody(firstName: string, lastName: string, email: string, password: string, country: string)

  /** The 201 reply: a message and the new user's id, and no token. */
  datatype Registered = Registered(status: nat, message: string, userId: ObjectId)

  datatype RegisterOutcome = RegisterOutcome(db: Db, reply: Result<Registered>)

  /** The payload `jwt.sign` is given. */
  datatype Claims = Claims(id: ObjectId, email: string)

  /** A signed token, represented by its payload and its `expiresIn` option. */
  datatype Token = Token(claims: Claims, expiresIn: string)

  /** The `user` object of the login reply. */
  datatype PublicUser = PublicUser(id: ObjectId, firstName: string, lastName: string, email: string, country: string)

  datatype Session = Session(user: PublicUser, token: Token)

  const UserExists := Failure(400, "User already exists")
  const InvalidCredentials := Failure(401, "Invalid email or password")
  const ServerError := Failure(500, "Server error")

  /** The document `new User({...})` builds: hashed password, empty lists, both timestamps `now`. */
  function NewUser(id: ObjectId, body: RegisterBody, h: Hasher, now: nat): User {
    User(id, body.firstName, body.lastName, body.email, h.hash(body.password), body.country,
         [], [], [], now, now)
  }

  /**
   * POST /register.  A taken email is refused before anything else; a field
   * the schema rejects (an empty string) makes `save` throw, which the catch
   * turns into 500.
   */
  function Register(db: Db, body: RegisterBody, h: Hasher, now: nat): (o: RegisterOutcome)
    requires Valid(db)
    ensures Valid(o.db)
    ensures body.email in db.emails ==> o == RegisterOutcome(db, Err(UserExists))
    ensures o.reply.Err? ==> o.db == db && o.reply.failure in {UserExists, ServerError}
    ensures o.reply.Ok? <==>
              && body.email !in db.emails
              && body.firstName != "" && body.lastName != "" && body.email != "" && body.country != ""
              && h.hash(body.password) != ""
    ensures o.reply.Ok? ==>
              var id := o.reply.value.userId;
              && o.reply.value.status == 201
              && id !in db.users
              && o.db.users.Keys == db.users.Keys + {id}
              && (forall k | k in db.users :: o.db.users[k] == db.users[k])
              && body.email in o.db.emails && o.db.emails[body.email] == id
              && o.db.users[id].password == h.hash(body.password)
              && o.db.users[id] == NewUser(id, body, h, now)
              && o.db.movies == db.movies
  {
    if body.email in db.emails then RegisterOutcome(db, Err(UserExists))
    else
      var u := NewUser(db.nextId, body, h, now);
      if !UserRequired(u) then RegisterOutcome(db, Err(ServerError))
      else
        var db' := db.(users := db.users[db.nextId := u],
                       emails := db.emails[body.email := db.nextId],
                       nextId := db.nextId + 1);
        assert UsersValid(db') by {
          forall id | id in db'.users ensures RefsResolve(db'.users[id], db'.movies) {
            if id != db.nextId {
              assert RefsResolve(db.users[id], db.movies);
            }
          }
        }
        RegisterOutcome(db', Ok(Registered(201, "Registration successful. Please login.", db.nextId)))
  }

  /**
   * POST /login.  Both failure causes, an unknown email and a password that
   * does not match, give the same 401 reply.
   */
  function Login(db: Db, email: string, password: string, h: Hasher): (r: Result<Session>)
    requires Valid(db)
    ensures r.Err? ==> r.failure == InvalidCredentials
    ensures r.Ok? <==> email in db.emails && h.compare(password, db.users[db.emails[email]].password)
    ensures r.Ok? ==>
              var u := db.users[db.emails[email]];
              && u.email == email
              && r.value.token == Token(Claims(u.id, u.email), "24h")
              && r.value.user == PublicUser(u.id, u.firstName, u.lastName, u.email, u.country)
  {
    if email !in db.emails then Err(InvalidCredentials)
    else
      var u := db.users[db.emails[email]];
      if !h.compare(password, u.password) then Err(InvalidCredentials)
      else Ok(Session(PublicUser(u.id, u.firstName, u.lastName, u.email, u.country),
                      Token(Claims(u.id, u.email), "24h")))
  }

  /** A login that fails says nothing about which of email and password was wrong. */
  lemma LoginFailuresIndistinguishable(db: Db, unknown: string, known: string, wrong: string, h: Hasher)
    requires Valid(db)
    requires unknown !in db.emails
    requires known in db.emails && !h.compare(wrong, db.users[db.emails[known]].password)
    ensures Login(db, unknown, wrong, h) == Login(db, known, wrong, h) == Err(InvalidCredentials)
  {
  }

  /**
   * Registering and then logging in with the same email and password
   * succeeds, and the session is for the user just created.
   */
  lemma RegisterThenLogin(db: Db, body: RegisterBody, h: Hasher, now: nat)
    requires Valid(db) && Sound(h)
    requires Register(db, body, h, now).reply.Ok?
    ensures var o := Register(db, body, h, now);
            var r := Login(o.db, body.email, body.password, h);
            && r.Ok?
            && r.value.user == PublicUser(o.reply.value.userId, body.firstName, body.lastName, body.email, body.country)
            && r.value.token.claims == Claims(o.reply.value.userId, body.email)
  {
    assert h.compare(body.password, h.hash(body.password));
  }

  /** Registering an email that is taken fails and leaves the stored user, hash included, as it was. */
  lemma DuplicateRegisterKeepsUser(db: Db, body: RegisterBody, h: Hasher, now: nat)
    requires Valid(db)
    requires body.email in db.emails
    ensures var o := Register(db, body, h, now);
            && o.reply == Err(UserExists)
            && o.db.users[db.emails[body.email]] == db.users[db.emails[body.email]]
  {
  }
}

=== FILE: browse.dfy ===
/**
 * Helpers the three browsing views share (pages/userHome.jsx, pages/index.js,
 * components/movies/MovieList.jsx): the catalog listing record, the title
 * search, the "minecraft" exclusion, the 12-item slice, the page-merge rule,
 * the load-more guard, trailer selection, and the navigation tables.
 */
module Browse {
  import opened Results
  import opened Text

  /** A movie as the catalog's list responses give it. */
  datatype Listing = Listing(
    id: int,
    title: string,
    overview: Option<string>,
    posterPath: Option<string>,
    backdropPath: Option<string>,
    releaseDate: Option<string>)

  /** An entry of the catalog's videos response (`type` is `kind` here). */
  datatype Video = Video(key: string, kind: string, site: string)

  /** One page of a catalog list response; `total_pages` may be missing (`undefined`). */
  datatype PageData = PageData(results: seq<Listing>, totalPages: Option<int>)

  /**
   * What a list request hands the page: the request or the JSON parse threw;
   * a parsed body without `results` (the catalog's error bodies, which
   * `fetch` does not reject), whose `total_pages` may be missing; or a page.
   */
  datatype Reply =
    | Thrown
    | NoResults(totalPages: Option<int>)
    | Listed(data: PageData)

  /** `movie.title.toLowerCase().includes(query.toLowerCase())`. */
  predicate TitleMatches(m: Listing, query: string) {
    Includes(ToLower(m.title), ToLower(query))
  }

  /**
   * `handleSearch`: a blank query shows every movie; any other query keeps, in
   * order, the movies whose lower-cased title contains the lower-cased query
   * (the query itself is not trimmed for the match).
   */
  function Search(movies: seq<Listing>, query: string): (r: seq<Listing>)
    ensures Blank(query) ==> r == movies
    ensures !Blank(query) ==> Subsequence(r, movies)
    ensures !Blank(query) ==> forall m :: m in r <==> m in movies && Occurs(ToLower(m.title), ToLower(query))
    ensures !Blank(query) ==>
              forall m :: multiset(r)[m] == if Occurs(ToLower(m.title), ToLower(query)) then multiset(movies)[m] else 0
  {
    TrimEmptyIffBlank(query);
    if Trim(query) == "" then movies else Filter(movies, m => TitleMatches(m, query))
  }

  /** Searching the result of a search for the same query changes nothing. */
  lemma SearchIdempotent(movies: seq<Listing>, query: string)
    ensures Search(Search(movies, query), query) == Search(movies, query)
  {
    TrimEmptyIffBlank(query);
    if !Blank(query) {
      FilterIdempotent(movies, m => TitleMatches(m, query));
    }
  }

  /** `movie.title.toLowerCase().includes('minecraft')`. */
  predicate IsMinecraft(m: Listing) {
    Includes(ToLower(m.title), "minecraft")
  }

  /** The results filter of index.js and MovieList.jsx. */
  function DropMinecraft(results: seq<Listing>): (r: seq<Listing>)
    ensures Subsequence(r, results)
    ensures forall m | m in r :: !Occurs(ToLower(m.title), "minecraft")
    ensures forall m :: m in r <==> m in results && !Occurs(ToLower(m.title), "minecraft")
  {
    Filter(results, m => !IsMinecraft(m))
  }

  predicate NoMinecraft(movies: seq<Listing>) {
    forall m | m in movies :: !IsMinecraft(m)
  }

  /** `slice(0, 12)`. */
  function First12<T>(s: seq<T>): (r: seq<T>)
    ensures |r| == if |s| < 12 then |s| else 12
    ensures r == s[..|r|]
  {
    if |s| < 12 then s else s[..12]
  }

  /** `page === 1 ? batch : [...prev, ...batch]`. */
  function MergePage<T>(prev: seq<T>, page: int, batch: seq<T>): (r: seq<T>)
    ensures page == 1 ==> r == batch
    ensures page != 1 ==> |r| == |prev| + |batch| && r[..|prev|] == prev && r[|prev|..] == batch
  {
    if page == 1 then batch else prev + batch
  }

  /** `loadMoreMovies`: the next page, but never past the last one; `page < undefined` is false. */
  function LoadMore(page: int, totalPages: Option<int>): (p: int)
    ensures page <= p <= page + 1
    ensures p == page + 1 <==> totalPages.Some? && page < totalPages.value
    ensures totalPages.Some? && page <= totalPages.value ==> p <= totalPages.value
  {
    if totalPages.Some? && page < totalPages.value then page + 1 else page
  }

  /**
   * Pressing load-more any number of times from a page in range never passes
   * the last page, and never moves at all once the last page is unknown.
   */
  lemma {:induction false} LoadMoreBounded(page: int, totalPages: Option<int>, presses: nat)
    requires totalPages.Some? ==> page <= totalPages.value
    ensures totalPages.Some? ==> LoadMoreTimes(page, totalPages, presses) <= totalPages.value
    ensures LoadMoreTimes(page, totalPages, presses) >= page
    ensures totalPages.None? ==> LoadMoreTimes(page, totalPages, presses) == page
    decreases presses
  {
    if presses > 0 {
      LoadMoreBounded(LoadMore(page, totalPages), totalPages, presses - 1);
    }
  }

  function LoadMoreTimes(page: int, totalPages: Option<int>, presses: nat): int
    decreases presses
  {
    if presses == 0 then page else LoadMoreTimes(LoadMore(page, totalPages), totalPages, presses - 1)
  }

  /** `vid.type === "Trailer" && vid.site === "YouTube"`. */
  predicate IsTrailer(v: Video) {
    v.kind == "Trailer" && v.site == "YouTube"
  }

  /** The position `videos.find(...)` stops at, or `|vs|` when it finds nothing. */
  function FirstTrailer(vs: seq<Video>): (k: nat)
    ensures k <= |vs|
    ensures k < |vs| ==> IsTrailer(vs[k])
    ensures forall j | 0 <= j < k :: !IsTrailer(vs[j])
    decreases |vs|
  {
    if |vs| == 0 then 0 else if IsTrailer(vs[0]) then 0 else 1 + FirstTrailer(vs[1..])
  }

  /** The trailer the views play: the first YouTube trailer, or none. */
  function PickTrailer(vs: seq<Video>): (r: Option<Video>)
    ensures r.None? <==> forall v | v in vs :: !IsTrailer(v)
    ensures r.Some? ==> r.value in vs && IsTrailer(r.value)
    ensures r.Some? ==> exists i | 0 <= i < |vs| :: vs[i] == r.value && forall j | 0 <= j < i :: !IsTrailer(vs[j])
  {
    var k := FirstTrailer(vs);
    if k < |vs| then Some(vs[k]) else None
  }

  /** The country names the signup form offers (components/auth/SignupForm.jsx). */
  const SignupCountries: seq<string> := ["South Africa", "United States", "India", "United Kingdom"]

  /**
   * The properties every object literal inherits from `Object.prototype`.
   * Indexing a literal map with one of these names finds the inherited
   * property instead of `undefined`.
   */
  const ObjectPrototypeKeys: set<string> :=
    {"constructor", "hasOwnProperty", "isPrototypeOf", "propertyIsEnumerable", "toLocaleString",
     "toString", "valueOf", "__proto__", "__defineGetter__", "__defineSetter__",
     "__lookupGetter__", "__lookupSetter__"}

  /**
   * An inherited property as a template literal prints it: `Object.prototype`
   * itself for `__proto__`, the `Object` function for `constructor`, and the
   * built-in method of that name otherwise.  All of them are truthy.
   */
  function InheritedText(key: string): (t: string)
    requires key in ObjectPrototypeKeys
    ensures |t| > 0
  {
    if key == "__proto__" then "[object Object]"
    else if key == "constructor" then "function Object() { [native code] }"
    else "function " + key + "() { [native code] }"
  }

  /** `regionMap[country] || ''`, inherited properties included. */
  function Region(country: string): string {
    if country == "United States" then "US"
    else if country == "India" then "IN"
    else if country == "United Kingdom" then "GB"
    else if country == "South Africa" then "ZA"
    else if country in ObjectPrototypeKeys then InheritedText(country)
    else ""
  }

  /**
   * Every country the signup form offers gets its own region.  Any other
   * country gets none, except an inherited property name, which yields a
   * non-empty text that is no region code.
   */
  lemma RegionCoversSignupCountries(other: string)
    ensures forall i | 0 <= i < |SignupCountries| :: Region(SignupCountries[i]) != ""
    ensures forall i, j | 0 <= i < j < |SignupCountries| :: Region(SignupCountries[i]) != Region(SignupCountries[j])
    ensures other !in SignupCountries && other !in ObjectPrototypeKeys ==> Region(other) == ""
    ensures other in ObjectPrototypeKeys ==>
              Region(other) != "" && forall i | 0 <= i < |SignupCountries| :: Region(other) != Region(SignupCountries[i])
  {
  }

  /** The category menu of both home pages. */
  const MenuCategories: seq<string> := ["Action", "Comedy", "Animation", "Horror", "Romantic"]

  /** `categoryMap[category] || category.toLowerCase()`, inherited properties included. */
  function CategorySlug(category: string): (slug: string)
    ensures category !in MenuCategories && category !in ObjectPrototypeKeys ==> slug == ToLower(category)
    ensures category in ObjectPrototypeKeys ==> |slug| > |category| && slug != ToLower(category)
    ensures category == "Romantic" ==> slug == "romance"
  {
    if category == "Action" then "action"
    else if category == "Comedy" then "comedy"
    else if category == "Animation" then "animation"
    else if category == "Horror" then "horror"
    else if category == "Romantic" then "romance"
    else if category in ObjectPrototypeKeys then InheritedText(category)
    else ToLower(category)
  }

  /** The signed-in menu's target (pages/userHome.jsx). */
  function UserCategoryPath(category: string): string {
    "/user/categories/" + CategorySlug(category)
  }

  /** The public menu's target (pages/index.js). */
  function PublicCategoryPath(category: string): string {
    "/categories/" + CategorySlug(category)
  }

  /** The paths the client router declares (App.js). */
  const DeclaredRoutes: set<string> := {
    "/", "/categories/action", "/categories/comedy", "/categories/animation", "/categories/horror",
    "/categories/romance", "/login", "/register", "/userHome", "/user/categories/action",
    "/user/categories/comedy", "/user/categories/animation", "/user/categories/horror",
    "/user/categories/romance"}

  /** The route slug of each menu entry, in menu order. */
  const MenuSlugs: seq<string> := ["action", "comedy", "animation", "horror", "romance"]

  lemma MenuSlugsMatch(i: nat)
    requires i < |MenuCategories|
    ensures CategorySlug(MenuCategories[i]) == MenuSlugs[i]
  {
    assert MenuCategories[i] == ["Action", "Comedy", "Animation", "Horror", "Romantic"][i];
  }

  /** Every menu entry of either home page leads to a route the router declares. */
  lemma MenuPathsAreRoutes()
    ensures forall i | 0 <= i < |MenuCategories| ::
              UserCategoryPath(MenuCategories[i]) in DeclaredRoutes
              && PublicCategoryPath(MenuCategories[i]) in DeclaredRoutes
  {
    forall i | 0 <= i < |MenuCategories|
      ensures UserCategoryPath(MenuCategories[i]) in DeclaredRoutes
      ensures PublicCategoryPath(MenuCategories[i]) in DeclaredRoutes
    {
      MenuSlugsMatch(i);
      RouteOfSlug(i);
    }
  }

  lemma RouteOfSlug(i: nat)
    requires i < |MenuSlugs|
    ensures "/user/categories/" + MenuSlugs[i] in DeclaredRoutes
    ensures "/categories/" + MenuSlugs[i] in DeclaredRoutes
  {
    var u := ["/user/categories/action", "/user/categories/comedy", "/user/categories/animation",
              "/user/categories/horror", "/user/categories/romance"];
    var p := ["/categories/action", "/categories/comedy", "/categories/animation",
              "/categories/horror", "/categories/romance"];
    assert "/user/categories/" + MenuSlugs[i] == u[i];
    assert "/categories/" + MenuSlugs[i] == p[i];
  }
}

=== FILE: favorite_toggle.dfy ===
/**
 * The favorite heart of a catalog movie on pages/userHome.jsx (the popular
 * grid and the featured banner) together with the two handlers it calls.
 * The page decides POST or DELETE from its own copy of the favorites
 * (`toggleFavorite`), sends the movie's catalog id in the path, and on
 * success adopts the populated list the reply carries.  The hearts of the
 * favorites grid receive mirror documents, which have no `id`; those clicks
 * are not modelled here.
 *
 * The DELETE handler takes the path parameter as a reference to a local
 * mirror, but the page sends the catalog id.  A catalog id is a short
 * decimal number, never 24 hexadecimal digits, so the cast fails and the
 * favorite cannot be removed.  `ToggleAsWritten` keeps that behaviour;
 * `Toggle` resolves the catalog id through the `tmdbId` index instead.
 */
module FavoriteToggle {
  import opened Results
  import opened Text
  import opened Models
  import opened UserController
  import UserHome

  /** The page's favorite state: its copy of the list and the error banner. */
  datatype Client = Client(favorites: seq<Movie>, error: Option<string>)

  /** The store after a click and the page state after the reply. */
  datatype Round = Round(db: Db, client: Client)

  /** `setFavorites(data.favorites)` on success; on failure the list stays and the error is shown. */
  function Settle(c: Client, m: UserHome.HttpMethod, o: Outcome): Client {
    if o.reply.Ok? then c.(favorites := o.reply.value)
    else c.(error := Some(if m == UserHome.DELETE then "Failed to remove from favorites" else "Failed to add to favorites"))
  }

  /** A catalog id written in decimal is never a cast-able `ObjectId`. */
  lemma CatalogIdNeverCasts(tmdbId: nat)
    requires tmdbId < Pow10(23)
    ensures CastObjectId(DecimalString(tmdbId)).None?
  {
    DecimalLength(tmdbId, 23);
  }

  /** One click on the heart, with DELETE /favorites/:movieId as the handler has it. */
  function ToggleAsWritten(db: Db, uid: ObjectId, c: Client, tmdbId: nat, catalog: Catalog, now: nat): (r: Round)
    requires Valid(db)
    ensures Valid(r.db)
    ensures r.db.emails == db.emails && r.db.users.Keys == db.users.Keys
    ensures forall id | id in db.users && id != uid :: r.db.users[id] == db.users[id]
    ensures UserHome.FavoriteRequest(c.favorites, tmdbId) == UserHome.DELETE ==>
              r.db.movies == db.movies && r.db.tmdbIds == db.tmdbIds
  {
    if UserHome.FavoriteRequest(c.favorites, tmdbId) == UserHome.POST then
      var o := AddToFavorites(db, uid, tmdbId, catalog, now);
      Round(o.db, Settle(c, UserHome.POST, o))
    else
      var o := RemoveFromFavoritesRoute(db, uid, DecimalString(tmdbId), now);
      Round(o.db, Settle(c, UserHome.DELETE, o))
  }

  /** As written, a DELETE click on a favorite changes nothing but the error banner. */
  lemma AsWrittenDeleteKeepsFavorite(db: Db, uid: ObjectId, c: Client, tmdbId: nat, catalog: Catalog, now: nat)
    requires Valid(db)
    requires tmdbId < Pow10(23)
    requires exists f | f in c.favorites :: f.tmdbId == tmdbId
    ensures var r := ToggleAsWritten(db, uid, c, tmdbId, catalog, now);
            && r.db == db
            && r.client.favorites == c.favorites
            && r.client.error == Some("Failed to remove from favorites")
  {
    CatalogIdNeverCasts(tmdbId);
  }

  /** The reference a catalog id resolves to; `nextId` is never a stored reference. */
  function MirrorRef(db: Db, tmdbId: int): (ref: ObjectId)
    requires Valid(db)
    ensures tmdbId in db.tmdbIds ==> ref in db.movies && db.movies[ref].tmdbId == tmdbId
    ensures forall id | id in db.movies :: db.movies[id].tmdbId == tmdbId <==> id == ref
  {
    if tmdbId in db.tmdbIds then db.tmdbIds[tmdbId] else db.nextId
  }

  /** Pulling the resolved reference leaves no mirror of `tmdbId` in the reply. */
  lemma NoMirrorLeft(db: Db, uid: ObjectId, tmdbId: int, now: nat)
    requires Valid(db)
    ensures var o := RemoveFromFavorites(db, uid, MirrorRef(db, tmdbId), now);
            o.reply.Ok? ==> forall m | m in o.reply.value :: m.tmdbId != tmdbId
  {
    var o := RemoveFromFavorites(db, uid, MirrorRef(db, tmdbId), now);
    if o.reply.Ok? {
      var before := db.users[uid].favorites;
      var after := o.db.users[uid].favorites;
      assert RefsResolve(db.users[uid], db.movies);
      forall m | m in o.reply.value ensures m.tmdbId != tmdbId {
        var i :| 0 <= i < |o.reply.value| && o.reply.value[i] == m;
        assert after[i] in before;
      }
    }
  }

  /**
   * DELETE /favorites/:movieId resolving the catalog id through the `tmdbId`
   * index before the `$pull`.
   */
  function RemoveFavoriteByTmdbId(db: Db, uid: ObjectId, tmdbId: int, now: nat): (o: Outcome)
    requires Valid(db)
    ensures Valid(o.db)
    ensures o.db.movies == db.movies && o.db.tmdbIds == db.tmdbIds && o.db.emails == db.emails
    ensures o.reply.Ok? <==> uid in db.users
    ensures o.reply.Err? ==> o.db == db && o.reply.failure == Failure(500, "Error removing from favorites")
    ensures o.reply.Ok? ==> forall m | m in o.reply.value :: m.tmdbId != tmdbId
    ensures o.reply.Ok? ==>
              var before := db.users[uid].favorites;
              var after := o.db.users[uid].favorites;
              && Subsequence(after, before)
              && (forall r | r in before && db.movies[r].tmdbId != tmdbId :: multiset(after)[r] == multiset(before)[r])
              && Expands(o.reply.value, o.db.movies, after)
    ensures tmdbId in db.tmdbIds ==> o == RemoveFromFavorites(db, uid, db.tmdbIds[tmdbId], now)
    ensures forall id | id in db.users && id != uid :: o.db.users[id] == db.users[id]
  {
    NoMirrorLeft(db, uid, tmdbId, now);
    assert uid in db.users ==> RefsResolve(db.users[uid], db.movies);
    RemoveFromFavorites(db, uid, MirrorRef(db, tmdbId), now)
  }

  /** One click on the heart, with the corrected DELETE handler. */
  function Toggle(db: Db, uid: ObjectId, c: Client, tmdbId: nat, catalog: Catalog, now: nat): (r: Round)
    requires Valid(db)
    ensures Valid(r.db)
    ensures r.db.emails == db.emails && r.db.users.Keys == db.users.Keys
    ensures forall id | id in db.users && id != uid :: r.db.users[id] == db.users[id]
    ensures uid in db.users && UserHome.FavoriteRequest(c.favorites, tmdbId) == UserHome.DELETE ==>
              && r.client.error == c.error
              && r.db.movies == db.movies
              && UserHome.FavoriteRequest(r.client.favorites, tmdbId) == UserHome.POST
  {
    if UserHome.FavoriteRequest(c.favorites, tmdbId) == UserHome.POST then
      var o := AddToFavorites(db, uid, tmdbId, catalog, now);
      Round(o.db, Settle(c, UserHome.POST, o))
    else
      var o := RemoveFavoriteByTmdbId(db, uid, tmdbId, now);
      Round(o.db, Settle(c, UserHome.DELETE, o))
  }

  /** The page's copy of the favorites is what GET /favorites would return. */
  predicate InSync(db: Db, uid: ObjectId, c: Client)
    requires Valid(db)
  {
    GetFavorites(db, uid).Ok? && c.favorites == GetFavorites(db, uid).value
  }

  /** The catalog answers a request for `tmdbId` with that same id, as the real catalog does. */
  predicate Answers(catalog: Catalog, tmdbId: int) {
    catalog(tmdbId).Some? ==> catalog(tmdbId).value.id == tmdbId
  }

  /** After the add, the user's favorites are the old ones plus the mirror of `tmdbId`, which was absent. */
  lemma AddedMirror(db: Db, uid: ObjectId, c: Client, tmdbId: nat, catalog: Catalog, now: nat)
    returns (ref: ObjectId)
    requires Valid(db) && InSync(db, uid, c) && Answers(catalog, tmdbId)
    requires !FindOrCreateMirror(db, tmdbId, catalog, now).Failed?
    requires UserHome.FavoriteRequest(c.favorites, tmdbId) == UserHome.POST
    ensures var o := AddToFavorites(db, uid, tmdbId, catalog, now);
            && o.reply.Ok?
            && ref in o.db.movies && o.db.movies[ref].tmdbId == tmdbId
            && o.db.tmdbIds[tmdbId] == ref
            && ref !in db.users[uid].favorites
            && o.db.users[uid].favorites == AddToSet(db.users[uid].favorites, ref)
            && (forall id | id in db.movies :: id in o.db.movies && o.db.movies[id] == db.movies[id])
            && UserHome.FavoriteRequest(o.reply.value, tmdbId) == UserHome.DELETE
  {
    var step := FindOrCreateMirror(db, tmdbId, catalog, now);
    var o := AddToFavorites(db, uid, tmdbId, catalog, now);
    ref := step.ref;
    assert o.db.movies[ref] in o.reply.value;
    MirrorNotFavorite(db, uid, c, tmdbId, ref);
  }

  /** A page showing no mirror of `tmdbId` means the user holds no reference to one. */
  lemma MirrorNotFavorite(db: Db, uid: ObjectId, c: Client, tmdbId: int, ref: ObjectId)
    requires Valid(db) && InSync(db, uid, c)
    requires UserHome.FavoriteRequest(c.favorites, tmdbId) == UserHome.POST
    requires ref in db.movies ==> db.movies[ref].tmdbId == tmdbId
    ensures ref !in db.users[uid].favorites
  {
    var fav := db.users[uid].favorites;
    assert RefsResolve(db.users[uid], db.movies);
    forall k | 0 <= k < |fav| ensures fav[k] != ref {
      assert c.favorites[k] in c.favorites;
    }
  }

  /** The corrected DELETE right after an add of an absent mirror restores the previous list. */
  lemma SecondClick(db: Db, uid: ObjectId, c: Client, tmdbId: nat, catalog: Catalog,
                    fav: seq<ObjectId>, ref: ObjectId, now: nat)
    requires Valid(db) && uid in db.users
    requires ref !in fav && db.users[uid].favorites == AddToSet(fav, ref)
    requires tmdbId in db.tmdbIds && db.tmdbIds[tmdbId] == ref
    requires UserHome.FavoriteRequest(c.favorites, tmdbId) == UserHome.DELETE
    ensures var r := Toggle(db, uid, c, tmdbId, catalog, now);
            && r.db.users[uid].favorites == fav
            && r.client.error == c.error
            && Expands(r.client.favorites, db.movies, fav)
  {
    PullUndoesAddToSet(fav, ref);
    var o := RemoveFavoriteByTmdbId(db, uid, tmdbId, now);
    assert Toggle(db, uid, c, tmdbId, catalog, now) == Round(o.db, c.(favorites := o.reply.value));
  }

  /** The first click adds the mirror of `tmdbId`, which was not a favorite, and turns the heart on. */
  lemma FirstClick(db: Db, uid: ObjectId, c: Client, tmdbId: nat, catalog: Catalog, now: nat)
    returns (ref: ObjectId)
    requires Valid(db) && InSync(db, uid, c) && Answers(catalog, tmdbId)
    requires !FindOrCreateMirror(db, tmdbId, catalog, now).Failed?
    requires UserHome.FavoriteRequest(c.favorites, tmdbId) == UserHome.POST
    ensures var r := Toggle(db, uid, c, tmdbId, catalog, now);
            && uid in r.db.users
            && r.client.error == c.error
            && ref !in db.users[uid].favorites
            && r.db.users[uid].favorites == AddToSet(db.users[uid].favorites, ref)
            && tmdbId in r.db.tmdbIds && r.db.tmdbIds[tmdbId] == ref
            && (forall id | id in db.movies :: id in r.db.movies && r.db.movies[id] == db.movies[id])
            && UserHome.FavoriteRequest(r.client.favorites, tmdbId) == UserHome.DELETE
  {
    ref := AddedMirror(db, uid, c, tmdbId, catalog, now);
    var o := AddToFavorites(db, uid, tmdbId, catalog, now);
    assert Toggle(db, uid, c, tmdbId, catalog, now) == Round(o.db, c.(favorites := o.reply.value));
  }

  /** With the corrected handler, a second click undoes the first, in the store and on the page. */
  lemma ToggleRoundTrip(db: Db, uid: ObjectId, c: Client, tmdbId: nat, catalog: Catalog, now: nat, later: nat)
    requires Valid(db) && InSync(db, uid, c) && Answers(catalog, tmdbId)
    requires !FindOrCreateMirror(db, tmdbId, catalog, now).Failed?
    requires UserHome.FavoriteRequest(c.favorites, tmdbId) == UserHome.POST
    ensures var r1 := Toggle(db, uid, c, tmdbId, catalog, now);
            var r2 := Toggle(r1.db, uid, r1.client, tmdbId, catalog, later);
            && UserHome.FavoriteRequest(r1.client.favorites, tmdbId) == UserHome.DELETE
            && r2.db.users[uid].favorites == db.users[uid].favorites
            && r2.client == c
  {
    var ref := FirstClick(db, uid, c, tmdbId, catalog, now);
    var r1 := Toggle(db, uid, c, tmdbId, catalog, now);
    SecondClick(r1.db, uid, r1.client, tmdbId, catalog, db.users[uid].favorites, ref, later);
    SamePage(db, uid, c, r1.db.movies, Toggle(r1.db, uid, r1.client, tmdbId, catalog, later).client);
  }

  /** A page showing the user's unchanged references through a store that kept every mirror is the page it was. */
  lemma SamePage(db: Db, uid: ObjectId, c: Client, movies: map<ObjectId, Movie>, c2: Client)
    requires Valid(db) && InSync(db, uid, c)
    requires forall id | id in db.movies :: id in movies && movies[id] == db.movies[id]
    requires c2.error == c.error
    requires Expands(c2.favorites, movies, db.users[uid].favorites)
    ensures c2 == c
  {
    var fav := db.users[uid].favorites;
    assert RefsResolve(db.users[uid], db.movies);
    forall i | 0 <= i < |fav| ensures c2.favorites[i] == c.favorites[i] {
      assert fav[i] in db.movies;
    }
    assert c2.favorites == c.favorites;
  }

  /** As written, the second click leaves the favorite in the store and on the page. */
  lemma AsWrittenRoundTripFails(db: Db, uid: ObjectId, c: Client, tmdbId: nat, catalog: Catalog, now: nat, later: nat)
    requires Valid(db) && InSync(db, uid, c) && Answers(catalog, tmdbId)
    requires tmdbId < Pow10(23)
    requires !FindOrCreateMirror(db, tmdbId, catalog, now).Failed?
    requires UserHome.FavoriteRequest(c.favorites, tmdbId) == UserHome.POST
    ensures var r1 := ToggleAsWritten(db, uid, c, tmdbId, catalog, now);
            var r2 := ToggleAsWritten(r1.db, uid, r1.client, tmdbId, catalog, later);
            && r2.db == r1.db
            && r2.db.users[uid].favorites != db.users[uid].favorites
            && UserHome.FavoriteRequest(r2.client.favorites, tmdbId) == UserHome.DELETE
            && r2.client.error == Some("Failed to remove from favorites")
  {
    var ref := AddedMirror(db, uid, c, tmdbId, catalog, now);
    var r1 := ToggleAsWritten(db, uid, c, tmdbId, catalog, now);
    assert ref in r1.db.users[uid].favorites;
    AsWrittenDeleteKeepsFavorite(r1.db, uid, r1.client, tmdbId, catalog, later);
  }
}

=== FILE: landing_page.dfy ===
/**
 * pages/index.js: the public landing page.  Its fetch drops "minecraft"
 * titles before taking 12, its featured-movie update refuses them, and the
 * layout switches on two width breakpoints.
 */
module LandingPage {
  import opened Results
  import opened Text
  import opened Browse

  datatype Feed = Feed(
    movies: seq<Listing>,
    filtered: seq<Listing>,
    page: int,
    totalPages: Option<int>,
    featured: Option<Listing>)

  /**
   * `fetchMovies`: filter, keep 12, replace on page 1 and append otherwise.
   * `total_pages` is stored first, so a body without results still sets it
   * before the filter throws; the catch only logs.
   */
  function FetchMovies(s: Feed, resp: Reply): (t: Feed)
    ensures resp.Thrown? ==> t == s
    ensures resp.NoResults? ==> t == s.(totalPages := resp.totalPages)
    ensures resp.Listed? ==> t.totalPages == resp.data.totalPages && t.page == s.page
    ensures resp.Listed? && s.page == 1 ==> t.movies == t.filtered == First12(DropMinecraft(resp.data.results))
    ensures resp.Listed? && s.page != 1 ==>
              && t.movies == s.movies + First12(DropMinecraft(resp.data.results))
              && t.filtered == s.filtered + First12(DropMinecraft(resp.data.results))
    ensures resp.Listed? && s.page == 1 && |First12(DropMinecraft(resp.data.results))| > 0 ==>
              t.featured == Some(DropMinecraft(resp.data.results)[0])
  {
    match resp
    case Thrown => s
    case NoResults(total) => s.(totalPages := total)
    case Listed(data) =>
      var batch := First12(DropMinecraft(data.results));
      var featured := if s.page == 1 && |batch| > 0 then Some(batch[0]) else s.featured;
      s.(movies := MergePage(s.movies, s.page, batch), filtered := MergePage(s.filtered, s.page, batch),
         totalPages := data.totalPages, featured := featured)
  }

  /** No "minecraft" title ever reaches the lists or the featured slot once none is there. */
  lemma FetchKeepsMinecraftOut(s: Feed, resp: Reply)
    requires NoMinecraft(s.movies) && NoMinecraft(s.filtered)
    requires s.featured.Some? ==> !IsMinecraft(s.featured.value)
    ensures var t := FetchMovies(s, resp);
            && NoMinecraft(t.movies) && NoMinecraft(t.filtered)
            && (t.featured.Some? ==> !IsMinecraft(t.featured.value))
  {
    if resp.Listed? {
      var batch := First12(DropMinecraft(resp.data.results));
      assert forall m | m in batch :: m in DropMinecraft(resp.data.results);
    }
  }

  /** `updateFeaturedMovie`: a title containing "minecraft" is refused. */
  function UpdateFeatured(current: Option<Listing>, movie: Listing): (r: Option<Listing>)
    ensures Occurs(ToLower(movie.title), "minecraft") ==> r == current
    ensures !Occurs(ToLower(movie.title), "minecraft") ==> r == Some(movie)
  {
    if IsMinecraft(movie) then current else Some(movie)
  }

  /** The layout flags: below 768 is mobile, from 768 up to 1024 is tablet. */
  datatype Layout = Layout(isMobile: bool, isTablet: bool)

  function Breakpoints(width: int): (l: Layout)
    ensures !(l.isMobile && l.isTablet)
    ensures l.isMobile || l.isTablet <==> width < 1024
    ensures l.isMobile ==> width < 768
  {
    Layout(width < 768, width >= 768 && width < 1024)
  }
}

=== FILE: models.dfy ===
/**
 * The two persisted records, `User` (models/User.js) and the local `Movie`
 * mirror of a catalog title (models/Movie.js), and the document store that
 * holds them.
 *
 * The store keeps each collection as a map from `_id` to document together
 * with the collection's unique index (`email` for users, `tmdbId` for
 * mirrors), so that `findOne` on the indexed field and `populate` on a list
 * of references are plain map lookups.  `nextId` stands for ObjectId
 * generation: every insert takes it and bumps it.
 */
module Models {
  import opened Results

  /** A document's `_id`. */
  type ObjectId = nat

  /** models/Movie.js: `tmdbId` and `title` are required, the rest is optional. */
  datatype Movie = Movie(
    id: ObjectId,
    tmdbId: int,
    title: string,
    overview: Option<string>,
    posterPath: Option<string>,
    backdropPath: Option<string>,
    releaseDate: Option<string>,
    voteAverage: Option<real>,
    createdAt: nat,
    updatedAt: nat)

  /** models/User.js: five required strings, three lists of Movie references, timestamps. */
  datatype User = User(
    id: ObjectId,
    firstName: string,
    lastName: string,
    email: string,
    password: string,
    country: string,
    favorites: seq<ObjectId>,
    currentlyWatching: seq<ObjectId>,
    recentlyWatched: seq<ObjectId>,
    createdAt: nat,
    updatedAt: nat)

  /** The three reference lists a user carries. */
  datatype ListName = Favorites | CurrentlyWatching | RecentlyWatched

  function ListOf(u: User, l: ListName): seq<ObjectId> {
    match l
    case Favorites => u.favorites
    case CurrentlyWatching => u.currentlyWatching
    case RecentlyWatched => u.recentlyWatched
  }

  function WithList(u: User, l: ListName, refs: seq<ObjectId>): (v: User)
    ensures ListOf(v, l) == refs
    ensures forall k: ListName | k != l :: ListOf(v, k) == ListOf(u, k)
    ensures v.(favorites := u.favorites, currentlyWatching := u.currentlyWatching,
               recentlyWatched := u.recentlyWatched) == u
  {
    match l
    case Favorites => u.(favorites := refs)
    case CurrentlyWatching => u.(currentlyWatching := refs)
    case RecentlyWatched => u.(recentlyWatched := refs)
  }

  /** Mongoose's `required` validator on a String path rejects the empty string. */
  predicate UserRequired(u: User) {
    u.firstName != "" && u.lastName != "" && u.email != "" && u.password != "" && u.country != ""
  }

  predicate MovieRequired(m: Movie) {
    m.title != ""
  }

  datatype Db = Db(
    users: map<ObjectId, User>,
    emails: map<string, ObjectId>,
    movies: map<ObjectId, Movie>,
    tmdbIds: map<int, ObjectId>,
    nextId: ObjectId)

  /** Every reference a user holds names a stored mirror. */
  predicate RefsResolve(u: User, movies: map<ObjectId, Movie>) {
    && (forall r | r in u.favorites :: r in movies)
    && (forall r | r in u.currentlyWatching :: r in movies)
    && (forall r | r in u.recentlyWatched :: r in movies)
  }

  predicate UsersValid(db: Db) {
    && (forall id | id in db.users ::
          && db.users[id].id == id
          && id < db.nextId
          && UserRequired(db.users[id])
          && db.users[id].email in db.emails
          && db.emails[db.users[id].email] == id
          && RefsResolve(db.users[id], db.movies))
    && (forall e | e in db.emails :: db.emails[e] in db.users && db.users[db.emails[e]].email == e)
  }

  predicate MoviesValid(db: Db) {
    && (forall id | id in db.movies ::
          && db.movies[id].id == id
          && id < db.nextId
          && MovieRequired(db.movies[id])
          && db.movies[id].tmdbId in db.tmdbIds
          && db.tmdbIds[db.movies[id].tmdbId] == id)
    && (forall t | t in db.tmdbIds :: db.tmdbIds[t] in db.movies && db.movies[db.tmdbIds[t]].tmdbId == t)
  }

  /** The store the schemas and their unique indexes allow. */
  predicate Valid(db: Db) {
    UsersValid(db) && MoviesValid(db)
  }

  /** The unique index on `email`: two stored users never share an address. */
  lemma EmailUnique(db: Db, a: ObjectId, b: ObjectId)
    requires Valid(db)
    requires a in db.users && b in db.users
    requires db.users[a].email == db.users[b].email
    ensures a == b
  {
  }

  /** The unique index on `tmdbId`: at most one mirror per catalog id. */
  lemma TmdbIdUnique(db: Db, a: ObjectId, b: ObjectId)
    requires Valid(db)
    requires a in db.movies && b in db.movies
    requires db.movies[a].tmdbId == db.movies[b].tmdbId
    ensures a == b
  {
  }

  /** `r` is `refs` expanded in order through `movies`, every reference resolving. */
  predicate Expands(r: seq<Movie>, movies: map<ObjectId, Movie>, refs: seq<ObjectId>) {
    |r| == |refs| && forall i | 0 <= i < |refs| :: refs[i] in movies && r[i] == movies[refs[i]]
  }

  /** A list of references expands in exactly one way. */
  lemma ExpandsUnique(r1: seq<Movie>, r2: seq<Movie>, movies: map<ObjectId, Movie>, refs: seq<ObjectId>)
    requires Expands(r1, movies, refs) && Expands(r2, movies, refs)
    ensures r1 == r2
  {
  }

  /** Extending a reference list through a store that kept every mirror keeps every expanded movie. */
  lemma ExpandsPrefix(r1: seq<Movie>, m1: map<ObjectId, Movie>, refs1: seq<ObjectId>,
                      r2: seq<Movie>, m2: map<ObjectId, Movie>, refs2: seq<ObjectId>)
    requires Expands(r1, m1, refs1) && Expands(r2, m2, refs2) && refs1 <= refs2
    requires forall id | id in m1 :: id in m2 && m2[id] == m1[id]
    ensures forall x | x in r1 :: x in r2
  {
    forall x | x in r1 ensures x in r2 {
      var i :| 0 <= i < |r1| && r1[i] == x;
      assert refs2[i] == refs1[i];
    }
  }

  /** `populate`: the referenced mirrors in list order; a dangling reference is dropped. */
  function Populate(movies: map<ObjectId, Movie>, refs: seq<ObjectId>): (r: seq<Movie>)
    ensures |r| <= |refs|
    ensures (forall x | x in refs :: x in movies) ==> Expands(r, movies, refs)
    ensures forall m | m in r :: exists x | x in refs :: x in movies && movies[x] == m
    decreases |refs|
  {
    if |refs| == 0 then []
    else
      var rest := Populate(movies, refs[1..]);
      assert forall x | x in refs[1..] :: x in refs;
      if refs[0] in movies then [movies[refs[0]]] + rest else rest
  }

  /** The empty store a fresh deployment starts from. */
  function EmptyDb(): (db: Db)
    ensures Valid(db)
    ensures db.users == map[] && db.movies == map[]
  {
    Db(map[], map[], map[], map[], 0)
  }

  predicate HexDigit(c: char) {
    '0' <= c <= '9' || 'a' <= c <= 'f' || 'A' <= c <= 'F'
  }

  function HexDigitValue(c: char): (d: nat)
    requires HexDigit(c)
    ensures d < 16
  {
    if '0' <= c <= '9' then c as int - '0' as int
    else if 'a' <= c <= 'f' then c as int - 'a' as int + 10
    else c as int - 'A' as int + 10
  }

  function HexValue(s: string): nat
    requires forall i | 0 <= i < |s| :: HexDigit(s[i])
    decreases |s|
  {
    if |s| == 0 then 0 else 16 * HexValue(s[..|s| - 1]) + HexDigitValue(s[|s| - 1])
  }

  /**
   * Casting a route parameter to an `ObjectId` path, as a query or update
   * does before it runs: 24 hexadecimal digits name an id, anything else
   * throws a cast error.
   */
  function CastObjectId(s: string): (r: Option<ObjectId>)
    ensures r.Some? <==> |s| == 24 && forall i | 0 <= i < |s| :: HexDigit(s[i])
  {
    if |s| == 24 && forall i | 0 <= i < |s| :: HexDigit(s[i]) then Some(HexValue(s)) else None
  }
}

=== FILE: movie_details.dfy ===
/**
 * components/movies/MovieDetails.jsx: the display rules of the detail page
 * (runtime, release year, background image, overview), the download guard,
 * and the resize handler that closes the trailer on small screens.
 */
module MovieDetails {
  import opened Results
  import opened Text
  import opened Browse
  import LandingPage

  /** `runtime` minutes as whole hours and the minutes left over. */
  function RuntimeParts(runtime: nat): (r: (nat, nat))
    ensures r.0 * 60 + r.1 == runtime
    ensures r.1 < 60
  {
    (runtime / 60, runtime % 60)
  }

  /** Hours and leftover minutes are the only split of a runtime that the label could show. */
  lemma RuntimePartsUnique(runtime: nat, h: nat, m: nat)
    requires h * 60 + m == runtime && m < 60
    ensures RuntimeParts(runtime) == (h, m)
  {
  }

  /** The "{h}h {m}m" label, shown only for a runtime that is present and not 0. */
  function RuntimeLabel(runtime: Option<nat>): (r: Option<string>)
    ensures r.Some? <==> runtime.Some? && runtime.value != 0
    ensures r.Some? ==>
              var (h, m) := RuntimeParts(runtime.value);
              r.value == DecimalString(h) + "h " + DecimalString(m) + "m"
  {
    if runtime.Some? && runtime.value != 0 then
      var (h, m) := RuntimeParts(runtime.value);
      Some(DecimalString(h) + "h " + DecimalString(m) + "m")
    else None
  }

  /**
   * What `{movieDetails && movieDetails.runtime && (<span>...)}` puts on the
   * page: a runtime of 0 short-circuits to the number 0, which React renders
   * as the text "0".
   */
  function RuntimeRenderedAsWritten(runtime: Option<nat>): (r: Option<string>)
    ensures runtime == Some(0) ==> r == Some("0")
    ensures runtime != Some(0) ==> r == RuntimeLabel(runtime)
  {
    if runtime == Some(0) then Some("0") else RuntimeLabel(runtime)
  }

  /** The as-written header shows a bare "0" for a zero runtime, which is no hours-and-minutes label. */
  lemma ZeroRuntimeShowsStrayText(h: nat, m: nat)
    ensures RuntimeRenderedAsWritten(Some(0)) == Some("0")
    ensures RuntimeLabel(Some(0)).None?
    ensures RuntimeRenderedAsWritten(Some(0)).value != DecimalString(h) + "h " + DecimalString(m) + "m"
  {
    assert |DecimalString(h) + "h " + DecimalString(m) + "m"| >= 4;
  }

  /** `s.split('-')[0]`: the text before the first "-". */
  function FirstField(s: string): (r: string)
    ensures r <= s
    ensures '-' !in r
    ensures |r| == |s| || s[|r|] == '-'
  {
    s[..IndexOf(s, '-')]
  }

  /** `movie.release_date?.split('-')[0] || 'N/A'`. */
  function ReleaseYear(date: Option<string>): (r: string)
    ensures date.None? ==> r == "N/A"
    ensures date.Some? && FirstField(date.value) == "" ==> r == "N/A"
    ensures date.Some? && FirstField(date.value) != "" ==> r == FirstField(date.value)
    ensures r != ""
  {
    if date.Some? && FirstField(date.value) != "" then FirstField(date.value) else "N/A"
  }

  /** A catalog date "YYYY-MM-DD" shows its year. */
  lemma ReleaseYearOfIsoDate(year: string, rest: string)
    requires year != "" && '-' !in year
    ensures ReleaseYear(Some(year + "-" + rest)) == year
  {
    var s := year + "-" + rest;
    assert s[|year|] == '-';
    assert forall i | 0 <= i < |year| :: s[i] == year[i];
    assert IndexOf(s, '-') == |year|;
    assert s[..|year|] == year;
  }

  /** `movie.backdrop_path || movie.poster_path`. */
  function BackgroundPath(movie: Listing): (r: Option<string>)
    ensures Truthy(movie.backdropPath) ==> r == movie.backdropPath
    ensures !Truthy(movie.backdropPath) ==> r == movie.posterPath
  {
    Or(movie.backdropPath, movie.posterPath)
  }

  /**
   * The background names an image exactly when the movie has a backdrop or a
   * poster; otherwise the URL ends in the missing value.
   */
  lemma BackgroundPathShowsAnImage(movie: Listing)
    ensures Truthy(BackgroundPath(movie)) <==> Truthy(movie.backdropPath) || Truthy(movie.posterPath)
  {
  }

  const NoOverview := "No overview available for this movie."

  /** The overview tab text: the overview, or the fixed fallback, never blank. */
  function OverviewText(movie: Listing): (r: string)
    ensures r != ""
    ensures Truthy(movie.overview) ==> r == movie.overview.value
    ensures !Truthy(movie.overview) ==> r == NoOverview
  {
    if Truthy(movie.overview) then movie.overview.value else NoOverview
  }

  const WatchPrefix := "https://www.youtube.com/watch?v="

  /** `handleDownload`: opens the trailer's watch page, and does nothing without a key. */
  function DownloadTarget(trailerKey: Option<string>): (r: Option<string>)
    ensures r.Some? <==> Truthy(trailerKey)
    ensures r.Some? ==>
              |r.value| > |WatchPrefix| && r.value[..|WatchPrefix|] == WatchPrefix
              && r.value[|WatchPrefix|..] == trailerKey.value
  {
    if Truthy(trailerKey) then Some(WatchPrefix + trailerKey.value) else None
  }

  /** The key a YouTube watch URL carries, or `None` for any other text. */
  function WatchKey(url: string): (k: Option<string>)
    ensures k.Some? <==> |url| >= |WatchPrefix| && url[..|WatchPrefix|] == WatchPrefix
    ensures k.Some? ==> WatchPrefix + k.value == url
  {
    if |url| >= |WatchPrefix| && url[..|WatchPrefix|] == WatchPrefix then Some(url[|WatchPrefix|..]) else None
  }

  /** The opened URL gives back exactly the trailer key it was built from. */
  lemma DownloadTargetRoundTrip(trailerKey: Option<string>)
    requires Truthy(trailerKey)
    ensures WatchKey(DownloadTarget(trailerKey).value) == trailerKey
  {
  }

  /** The download button of a movie whose videos hold a YouTube trailer opens that first trailer. */
  lemma DownloadOpensFirstTrailer(videos: seq<Video>)
    requires PickTrailer(videos).Some? && PickTrailer(videos).value.key != ""
    ensures var url := DownloadTarget(Some(PickTrailer(videos).value.key));
            && url.Some?
            && WatchKey(url.value) == Some(videos[FirstTrailer(videos)].key)
            && forall j | 0 <= j < FirstTrailer(videos) :: !IsTrailer(videos[j])
  {
    DownloadTargetRoundTrip(Some(PickTrailer(videos).value.key));
  }

  /** `window.innerWidth <= 768`. */
  predicate IsMobile(width: int) {
    width <= 768
  }

  datatype View = View(isMobile: bool, showTrailer: bool)

  /** `handleResize`: records the width class and closes a trailer shown on a mobile width. */
  function OnResize(v: View, width: int): (w: View)
    ensures w.isMobile <==> width <= 768
    ensures !(w.isMobile && w.showTrailer)
    ensures w.showTrailer ==> v.showTrailer
    ensures width > 768 ==> w.showTrailer == v.showTrailer
  {
    View(IsMobile(width), v.showTrailer && !IsMobile(width))
  }

  /** At exactly 768 pixels this page counts as mobile while the landing page counts as tablet. */
  lemma MobileThresholdsDiffer()
    ensures IsMobile(768) && LandingPage.Breakpoints(768).isTablet
    ensures forall w :: LandingPage.Breakpoints(w).isMobile ==> IsMobile(w)
  {
  }
}

=== FILE: movie_list.dfy ===
/**
 * components/movies/MovieList.jsx: the category list view behind every
 * category route.  It builds the request URL from an endpoint that may
 * already carry a query string, filters every page, and clears both lists
 * when a request fails or returns nothing.
 */
module MovieList {
  import opened Results
  import opened Text
  import opened Browse

  const CatalogBase := "https://api.themoviedb.org/3/"
  const ClientApiKey := "02d2d30e38f07e116dd9f4ec122a4a27"

  /** `apiEndpoint.includes('?') ? '&' : '?'`. */
  function Separator(endpoint: string): char {
    if '?' in endpoint then '&' else '?'
  }

  /** The text after the separator. */
  function QueryTail(page: nat): string {
    "api_key=" + ClientApiKey + "&language=en-US&page=" + DecimalString(page)
  }

  /** The list request URL for `page`: one separator after the endpoint, and no other "?" added. */
  function RequestUrl(endpoint: string, page: nat): (url: string)
    ensures |url| > |CatalogBase| + |endpoint|
    ensures url[..|CatalogBase| + |endpoint|] == CatalogBase + endpoint
    ensures url[|CatalogBase| + |endpoint|] == (if '?' in endpoint then '&' else '?')
    ensures url[|CatalogBase| + |endpoint| + 1..] == QueryTail(page)
    ensures '?' in url
    ensures forall i | |CatalogBase| + |endpoint| < i < |url| :: url[i] != '?'
  {
    var url := CatalogBase + endpoint + [Separator(endpoint)] + QueryTail(page);
    NoQuestionMark(page);
    assert url[|CatalogBase| + |endpoint| + 1..] == QueryTail(page);
    assert '?' in endpoint ==> exists i | 0 <= i < |endpoint| :: endpoint[i] == '?' && url[|CatalogBase| + i] == '?';
    assert url[|CatalogBase| + |endpoint|] == Separator(endpoint);
    url
  }

  lemma NoQuestionMark(page: nat)
    ensures forall i | 0 <= i < |QueryTail(page)| :: QueryTail(page)[i] != '?'
  {
    var digits := DecimalString(page);
    var fixed := "api_key=" + ClientApiKey + "&language=en-US&page=";
    assert '?' !in fixed;
    assert QueryTail(page) == fixed + digits;
  }

  datatype Feed = Feed(movies: seq<Listing>, filtered: seq<Listing>, page: int, totalPages: Option<int>)

  /**
   * `fetchMovies`: a non-ok response or one without results empties both
   * lists; otherwise the filtered page replaces (page 1) or extends the lists,
   * with no cap on how many it adds.
   */
  function FetchMovies(s: Feed, resp: Option<PageData>): (t: Feed)
    ensures t.page == s.page
    ensures resp.None? || |resp.value.results| == 0 ==> t == s.(movies := [], filtered := [])
    ensures resp.Some? && |resp.value.results| > 0 ==>
              && t.totalPages == resp.value.totalPages
              && t.movies == MergePage(s.movies, s.page, DropMinecraft(resp.value.results))
              && t.filtered == MergePage(s.filtered, s.page, DropMinecraft(resp.value.results))
    ensures resp.Some? && s.page != 1 ==> |t.movies| == 0 || |t.movies| == |s.movies| + |DropMinecraft(resp.value.results)|
  {
    match resp
    case None => s.(movies := [], filtered := [])
    case Some(data) =>
      if |data.results| == 0 then s.(movies := [], filtered := [])
      else
        var batch := DropMinecraft(data.results);
        s.(totalPages := data.totalPages, movies := MergePage(s.movies, s.page, batch),
           filtered := MergePage(s.filtered, s.page, batch))
  }

  /** Every fetched page is filtered, so no "minecraft" title gets into either list. */
  lemma FetchKeepsMinecraftOut(s: Feed, resp: Option<PageData>)
    requires NoMinecraft(s.movies) && NoMinecraft(s.filtered)
    ensures var t := FetchMovies(s, resp); NoMinecraft(t.movies) && NoMinecraft(t.filtered)
  {
  }

  /** `handleBackNavigation`. */
  function BackTarget(isUserLoggedIn: bool): (path: string)
    ensures path in DeclaredRoutes
    ensures path == "/userHome" <==> isUserLoggedIn
  {
    if isUserLoggedIn then "/userHome" else "/"
  }
}

=== FILE: profile_form.dfy ===
/**
 * The profile-update form of pages/userHome.jsx (`handleProfileUpdate`).  It
 * sends the form to PUT /profile and looks for the updated user under a
 * `user` key, but `updateUserProfile` replies with the five public fields at
 * the top level.  `ShowAsWritten` keeps that reading, under which every
 * saved update is reported as a failure; `Show` reads the fields where the
 * handler puts them.
 */
module ProfileForm {
  import opened Results
  import opened Models
  import opened UserController

  /**
   * The JSON body of the PUT /profile reply: `message` on failure, the public
   * fields at the top level on success, and the `user` key the page reads.
   */
  datatype Body = Body(message: Option<string>, fields: Option<ProfileView>, user: Option<ProfileView>)

  /** The body `updateUserProfile` sends; it never writes a `user` key. */
  function BodyOf(reply: Result<ProfileView>): (b: Body)
    ensures b.user.None?
    ensures b.fields.Some? <==> reply.Ok?
    ensures reply.Ok? ==> b.fields.value == reply.value
    ensures reply.Err? ==> b.message == Some(reply.failure.message)
  {
    match reply
    case Ok(v) => Body(None, Some(v), None)
    case Err(f) => Body(Some(f.message), None, None)
  }

  /** Where the form ends: the user it stores and shows, or the error banner. */
  datatype Shown = Saved(user: ProfileView) | Banner(error: string)

  const NoUserData := "Failed to update profile: User data not returned from server"

  /** The banner for a non-ok reply: `data.message || 'Update failed'`. */
  function RejectedBanner(b: Body): (e: string)
    ensures Truthy(b.message) ==> e == "Failed to update profile: " + b.message.value
    ensures !Truthy(b.message) ==> e == "Failed to update profile: Update failed"
  {
    "Failed to update profile: " + (if Truthy(b.message) then b.message.value else "Update failed")
  }

  /** `handleProfileUpdate` as written: `response.ok` first, then `data.user`. */
  function ShowAsWritten(ok: bool, b: Body): (r: Shown)
    ensures !ok ==> r == Banner(RejectedBanner(b))
    ensures r.Saved? <==> ok && b.user.Some?
    ensures r.Saved? ==> r.user == b.user.value
    ensures ok && b.user.None? ==> r == Banner(NoUserData)
  {
    if !ok then Banner(RejectedBanner(b))
    else if b.user.None? then Banner(NoUserData)
    else Saved(b.user.value)
  }

  /** The corrected reading: the updated user is the top level of the body. */
  function Show(ok: bool, b: Body): (r: Shown)
    ensures !ok ==> r == Banner(RejectedBanner(b))
    ensures r.Saved? <==> ok && b.fields.Some?
    ensures r.Saved? ==> r.user == b.fields.value
  {
    if !ok then Banner(RejectedBanner(b))
    else if b.fields.None? then Banner(NoUserData)
    else Saved(b.fields.value)
  }

  /** The page's view of one PUT /profile: the handler, its body, and the reading. */
  function Submit(db: Db, uid: ObjectId, form: ProfileUpdate, now: nat, asWritten: bool): (r: Shown)
    requires Valid(db)
    ensures var o := UpdateUserProfile(db, uid, form, now);
            o.reply.Err? ==> r == Banner("Failed to update profile: " + o.reply.failure.message)
  {
    var o := UpdateUserProfile(db, uid, form, now);
    var b := BodyOf(o.reply);
    if asWritten then ShowAsWritten(o.reply.Ok?, b) else Show(o.reply.Ok?, b)
  }

  /**
   * As written, an update the store saved is still reported as a failure:
   * the handler succeeds and changes the stored user, and the page shows
   * "User data not returned from server".
   */
  lemma SavedUpdateReportedFailed(db: Db, uid: ObjectId, form: ProfileUpdate, now: nat)
    requires Valid(db) && uid in db.users
    ensures var o := UpdateUserProfile(db, uid, form, now);
            && o.reply.Ok?
            && o.db.users[uid] == Updated(db.users[uid], form, now)
            && Submit(db, uid, form, now, true) == Banner(NoUserData)
  {
  }

  /**
   * With the corrected reading, a saved update shows exactly the public
   * fields GET /profile then returns.
   */
  lemma SavedUpdateShowsProfile(db: Db, uid: ObjectId, form: ProfileUpdate, now: nat)
    requires Valid(db) && uid in db.users
    ensures var o := UpdateUserProfile(db, uid, form, now);
            var g := GetUserProfile(o.db, uid);
            var r := Submit(db, uid, form, now, false);
            && r.Saved? && g.Ok?
            && r.user == ProfileView(g.value.id, g.value.firstName, g.value.lastName, g.value.email, g.value.country)
  {
    UpdateReplyMatchesProfile(db, uid, form, now);
  }
}

=== FILE: results.dfy ===
/** Failure-carrying datatypes shared by the backend handlers and the client helpers. */
module Results {

  /** A value that JavaScript may leave `undefined`. */
  datatype Option<+T> = None | Some(value: T)

  /** An HTTP error reply: status code plus the JSON `message` the handler sends. */
  datatype Failure = Failure(status: nat, message: string)

  /** The reply of a handler: the success payload, or the error reply it sends instead. */
  datatype Result<+T> = Ok(value: T) | Err(failure: Failure)

  /** JavaScript truthiness of an optional string: present and not empty. */
  predicate Truthy(s: Option<string>) {
    s.Some? && s.value != ""
  }

  /** JavaScript `a || b` on optional strings. */
  function Or(a: Option<string>, b: Option<string>): (r: Option<string>)
    ensures Truthy(a) ==> r == a
    ensures !Truthy(a) ==> r == b
    ensures Truthy(r) <==> Truthy(a) || Truthy(b)
  {
    if Truthy(a) then a else b
  }
}

=== FILE: signup_form.dfy ===
/**
 * components/auth/SignupForm.jsx: `validateForm` and the payload
 * `handleSubmit` sends to POST /register.
 */
module SignupForm {
  import opened Results
  import opened Text
  import AuthController

  datatype FormData = FormData(
    firstName: string,
    lastName: string,
    email: string,
    password: string,
    confirmPassword: string,
    country: string)

  /** The keys of the error object. */
  datatype Field = FirstName | LastName | Email | Password | ConfirmPassword | Country

  /** No white space and no "@": the regex class `[^\s@]` over a whole part. */
  predicate Plain(s: string) {
    forall i | 0 <= i < |s| :: !IsSpace(s[i]) && s[i] != '@'
  }

  /** `s` reads as local "@" d1 "." d2, with the "@" at `at` and the "." at `dot`. */
  predicate EmailSplit(s: string, at: int, dot: int) {
    && 0 < at && at + 1 < dot && dot + 1 < |s|
    && s[at] == '@' && s[dot] == '.'
    && Plain(s[..at]) && Plain(s[at + 1..dot]) && Plain(s[dot + 1..])
  }

  /** What `/^[^\s@]+@[^\s@]+\.[^\s@]+$/` accepts. */
  ghost predicate EmailShape(s: string) {
    exists at, dot :: EmailSplit(s, at, dot)
  }

  /** Some "." with at least one character on each side. */
  predicate HasInnerDot(d: string) {
    exists j | 1 <= j < |d| - 1 :: d[j] == '.'
  }

  /**
   * The hand-coded email check: one "@" with something before it, nothing
   * blank or a second "@" anywhere, and a "." strictly inside the part after
   * the "@".
   */
  function IsEmail(s: string): (b: bool)
    ensures b <==> EmailShape(s)
  {
    var at := IndexOf(s, '@');
    var domain := if at < |s| then s[at + 1..] else "";
    var b := 0 < at < |s| && Plain(s[..at]) && Plain(domain) && HasInnerDot(domain);
    if b then
      var j :| 1 <= j < |domain| - 1 && domain[j] == '.';
      assert s[at + 1..at + 1 + j] == domain[..j];
      assert s[at + 1 + j + 1..] == domain[j + 1..];
      assert EmailSplit(s, at, at + 1 + j);
      true
    else
      EmailShapeNeedsFirstAt(s);
      false
  }

  lemma EmailShapeNeedsFirstAt(s: string)
    ensures EmailShape(s) ==>
              var at := IndexOf(s, '@');
              0 < at < |s| && Plain(s[..at]) && Plain(s[at + 1..]) && HasInnerDot(s[at + 1..])
  {
    if EmailShape(s) {
      var at, dot :| EmailSplit(s, at, dot);
      FirstAtOfSplit(s, at, dot);
      DomainOfSplit(s, at, dot);
    }
  }

  /** In a split email the "@" of the split is the first one. */
  lemma FirstAtOfSplit(s: string, at: int, dot: int)
    requires EmailSplit(s, at, dot)
    ensures IndexOf(s, '@') == at
  {
    assert forall i | 0 <= i < at :: s[..at][i] == s[i];
  }

  /** In a split email everything after the "@" is plain and has a dot inside. */
  lemma DomainOfSplit(s: string, at: int, dot: int)
    requires EmailSplit(s, at, dot)
    ensures Plain(s[at + 1..]) && HasInnerDot(s[at + 1..])
  {
    var domain := s[at + 1..];
    assert domain == s[at + 1..dot] + ['.'] + s[dot + 1..];
    assert domain[dot - at - 1] == '.';
  }

  /** The message line `field` of `validateForm` sets, if it sets one. */
  function Check(f: FormData, field: Field): (r: Option<string>)
    ensures field == FirstName ==> (r.Some? <==> Blank(f.firstName))
    ensures field == LastName ==> (r.Some? <==> Blank(f.lastName))
    ensures field == Email ==> (r.Some? <==> Blank(f.email) || !EmailShape(f.email))
    ensures field == Email && r.Some? ==> r.value == if Blank(f.email) then "Email is required" else "Email is invalid"
    ensures field == Password ==> (r.Some? <==> Utf16Length(f.password) < 8)
    ensures field == ConfirmPassword ==> (r.Some? <==> f.password != f.confirmPassword)
    ensures field == Country ==> (r.Some? <==> f.country == "")
  {
    TrimEmptyIffBlank(f.firstName);
    TrimEmptyIffBlank(f.lastName);
    TrimEmptyIffBlank(f.email);
    match field
    case FirstName => if Trim(f.firstName) == "" then Some("First name is required") else None
    case LastName => if Trim(f.lastName) == "" then Some("Last name is required") else None
    case Email =>
      if Trim(f.email) == "" then Some("Email is required")
      else if !IsEmail(f.email) then Some("Email is invalid") else None
    case Password =>
      if f.password == "" then Some("Password is required")
      else if Utf16Length(f.password) < 8 then Some("Password must be at least 8 characters") else None
    case ConfirmPassword => if f.password != f.confirmPassword then Some("Passwords don't match") else None
    case Country => if f.country == "" then Some("Country is required") else None
  }

  /** Four emoji are eight UTF-16 units, so they meet the length rule although they are four characters. */
  lemma EmojiPasswordIsLongEnough()
    ensures var p := "\U{1F600}\U{1F600}\U{1F600}\U{1F600}"; |p| == 4 && Utf16Length(p) == 8
  {
    var p := "\U{1F600}\U{1F600}\U{1F600}\U{1F600}";
    assert p[1..][1..][1..][1..] == "";
  }

  /** `validateForm`: the error object, one entry per failed check. */
  function ValidateForm(f: FormData): (errors: map<Field, string>)
    ensures FirstName in errors <==> Blank(f.firstName)
    ensures LastName in errors <==> Blank(f.lastName)
    ensures Email in errors <==> Blank(f.email) || !EmailShape(f.email)
    ensures Email in errors ==> errors[Email] == if Blank(f.email) then "Email is required" else "Email is invalid"
    ensures Password in errors <==> Utf16Length(f.password) < 8
    ensures Password in errors ==>
              errors[Password] == if f.password == "" then "Password is required" else "Password must be at least 8 characters"
    ensures ConfirmPassword in errors <==> f.password != f.confirmPassword
    ensures Country in errors <==> f.country == ""
  {
    var fields := {FirstName, LastName, Email, Password, ConfirmPassword, Country};
    map k | k in fields && Check(f, k).Some? :: Check(f, k).value
  }

  /** `Object.keys(newErrors).length === 0`. */
  predicate FormValid(f: FormData) {
    |ValidateForm(f)| == 0
  }

  /** The form is valid exactly when every one of the six checks passes. */
  lemma FormValidIff(f: FormData)
    ensures FormValid(f) <==>
              && !Blank(f.firstName) && !Blank(f.lastName)
              && !Blank(f.email) && EmailShape(f.email)
              && Utf16Length(f.password) >= 8 && f.password == f.confirmPassword
              && f.country != ""
  {
    var errors := ValidateForm(f);
    if |errors| != 0 {
      var k :| k in errors;
      assert k in errors.Keys;
    } else {
      assert errors.Keys == {};
    }
  }

  /** `handleSubmit`: no request for an invalid form, otherwise the form minus `confirmPassword`. */
  function Submit(f: FormData): (r: Option<AuthController.RegisterBody>)
    ensures r.Some? <==> FormValid(f)
    ensures r.Some? ==> r.value == AuthController.RegisterBody(f.firstName, f.lastName, f.email, f.password, f.country)
  {
    if FormValid(f) then Some(AuthController.RegisterBody(f.firstName, f.lastName, f.email, f.password, f.country))
    else None
  }

  /**
   * A form the client lets through never fails the server-side schema: with
   * a new email, registration succeeds.
   */
  lemma SubmittedFormRegisters(db: AuthController.Models.Db, f: FormData, h: AuthController.Hasher, now: nat)
    requires AuthController.Models.Valid(db) && AuthController.Sound(h)
    requires Submit(f).Some? && f.email !in db.emails
    ensures AuthController.Register(db, Submit(f).value, h, now).reply.Ok?
  {
    FormValidIff(f);
    assert f.firstName != "" && f.lastName != "" && f.email != "";
    assert h.hash(f.password) != "";
  }
}

=== FILE: text.dfy ===
/**
 * ASCII models of the JavaScript string and array helpers the client uses:
 * `trim`, `toLowerCase`, `includes`, `split('-')[0]`, `filter` and decimal
 * number formatting.  Unicode whitespace and case mapping are approximated by
 * their ASCII subsets.
 */
module Text {

  /** The ASCII characters JavaScript's `trim` and the regex class `\s` treat as white space. */
  predicate IsSpace(c: char) {
    c == ' ' || c == '\t' || c == '\n' || c == '\r' || c == '\U{000B}' || c == '\U{000C}'
  }

  /** A string with nothing but white space: what `s.trim() === ''` detects. */
  predicate Blank(s: string) {
    forall i | 0 <= i < |s| :: IsSpace(s[i])
  }

  function TrimStart(s: string): (r: string)
    ensures |r| <= |s| && r == s[|s| - |r|..]
    ensures Blank(s[..|s| - |r|])
    ensures |r| > 0 ==> !IsSpace(r[0])
    decreases |s|
  {
    if |s| > 0 && IsSpace(s[0]) then TrimStart(s[1..]) else s
  }

  function TrimEnd(s: string): (r: string)
    ensures |r| <= |s| && r == s[..|r|]
    ensures Blank(s[|r|..])
    ensures |r| > 0 ==> !IsSpace(r[|r| - 1])
    decreases |s|
  {
    if |s| > 0 && IsSpace(s[|s| - 1]) then
      var r := TrimEnd(s[..|s| - 1]);
      assert s[|r|..] == s[..|s| - 1][|r|..] + [s[|s| - 1]];
      r
    else s
  }

  /** `s.trim()`: the longest infix that neither starts nor ends with white space. */
  function Trim(s: string): (r: string)
    ensures |r| <= |s|
    ensures |r| > 0 ==> !IsSpace(r[0]) && !IsSpace(r[|r| - 1])
  {
    TrimEnd(TrimStart(s))
  }

  /** Trimming leaves nothing exactly when the string is all white space. */
  lemma {:induction false} TrimEmptyIffBlank(s: string)
    ensures Trim(s) == "" <==> Blank(s)
  {
    var t := TrimStart(s);
    if Trim(s) == "" {
      assert Blank(t[0..]);
      assert |t| == 0;
      assert s[..|s|] == s;
    } else {
      var r := Trim(s);
      assert r == t[..|r|];
      assert t == s[|s| - |t|..];
      assert r[0] == s[|s| - |t|];
      assert !IsSpace(s[|s| - |t|]);
    }
  }

  function Lower(c: char): (d: char)
    ensures 'A' <= c <= 'Z' ==> d as int == c as int + 32
    ensures !('A' <= c <= 'Z') ==> d == c
  {
    if 'A' <= c <= 'Z' then (c as int + 32) as char else c
  }

  /** JavaScript `length`: UTF-16 code units, two for a character outside the Basic Multilingual Plane. */
  function Utf16Length(s: string): (n: nat)
    ensures |s| <= n <= 2 * |s|
    ensures (forall i | 0 <= i < |s| :: s[i] as int < 0x1_0000) ==> n == |s|
    ensures n == 0 <==> s == ""
    decreases |s|
  {
    if |s| == 0 then 0
    else (if s[0] as int < 0x1_0000 then 1 else 2) + Utf16Length(s[1..])
  }

  /** `s.toLowerCase()`, ASCII letters only. */
  function ToLower(s: string): (r: string)
    ensures |r| == |s|
    ensures forall i | 0 <= i < |s| :: r[i] == Lower(s[i])
  {
    seq(|s|, i requires 0 <= i < |s| => Lower(s[i]))
  }

  /** `sub` sits in `s` starting at offset `i`. */
  predicate OccursAt(s: string, sub: string, i: int) {
    0 <= i <= |s| - |sub| && s[i..i + |sub|] == sub
  }

  /** `sub` occurs in `s` at some offset: the meaning of `s.includes(sub)`. */
  ghost predicate Occurs(s: string, sub: string) {
    exists i :: OccursAt(s, sub, i)
  }

  lemma OccursShift(s: string, sub: string)
    requires 0 < |sub| <= |s|
    requires s[..|sub|] != sub
    ensures Occurs(s, sub) <==> Occurs(s[1..], sub)
  {
    if Occurs(s, sub) {
      var i :| OccursAt(s, sub, i);
      assert i != 0;
      assert s[1..][i - 1..i - 1 + |sub|] == s[i..i + |sub|];
      assert OccursAt(s[1..], sub, i - 1);
    }
    if Occurs(s[1..], sub) {
      var i :| OccursAt(s[1..], sub, i);
      assert s[i + 1..i + 1 + |sub|] == s[1..][i..i + |sub|];
      assert OccursAt(s, sub, i + 1);
    }
  }

  /** `s.includes(sub)`, computed by scanning offsets left to right. */
  function Includes(s: string, sub: string): (b: bool)
    ensures b <==> Occurs(s, sub)
    decreases |s|
  {
    if |sub| > |s| then false
    else if s[..|sub|] == sub then assert OccursAt(s, sub, 0); true
    else OccursShift(s, sub); Includes(s[1..], sub)
  }

  /** The index of the first `c` in `s`, or `|s|` when there is none. */
  function IndexOf(s: string, c: char): (k: nat)
    ensures k <= |s|
    ensures k < |s| ==> s[k] == c
    ensures forall i | 0 <= i < k :: s[i] != c
    decreases |s|
  {
    if |s| == 0 then 0 else if s[0] == c then 0 else 1 + IndexOf(s[1..], c)
  }

  /** `xs` is an order-preserving selection of the elements of `ys`. */
  predicate Subsequence<T(==)>(xs: seq<T>, ys: seq<T>)
    decreases |ys|
  {
    if |xs| == 0 then true
    else if |ys| == 0 then false
    else if xs[0] == ys[0] then Subsequence(xs[1..], ys[1..])
    else Subsequence(xs, ys[1..])
  }

  /** JavaScript `Array.prototype.filter`: keeps, in order, every element that passes `p`. */
  function Filter<T(==,!new)>(s: seq<T>, p: T -> bool): (r: seq<T>)
    ensures Subsequence(r, s)
    ensures forall x :: multiset(r)[x] == if p(x) then multiset(s)[x] else 0
    ensures forall x :: x in r <==> x in s && p(x)
    decreases |s|
  {
    if |s| == 0 then []
    else
      var rest := Filter(s[1..], p);
      assert s == [s[0]] + s[1..];
      if p(s[0]) then [s[0]] + rest else rest
  }

  /** A filter that every element passes returns its input. */
  lemma {:induction false} FilterKeepsAll<T(!new)>(s: seq<T>, p: T -> bool)
    requires forall x | x in s :: p(x)
    ensures Filter(s, p) == s
    decreases |s|
  {
    if |s| > 0 {
      assert forall x | x in s[1..] :: x in s;
      FilterKeepsAll(s[1..], p);
      assert s == [s[0]] + s[1..];
    }
  }

  lemma Reassociate<T>(a: seq<T>, b: seq<T>, c: seq<T>)
    ensures a + (b + c) == (a + b) + c
  {
  }

  /** Filtering a non-empty list decides its head, then filters the rest. */
  lemma FilterCons<T(!new)>(t: seq<T>, p: T -> bool)
    requires |t| > 0
    ensures Filter(t, p) == (if p(t[0]) then [t[0]] else []) + Filter(t[1..], p)
  {
  }

  /** Filtering a list with one more element at the end filters the prefix, then that element. */
  lemma {:induction false} FilterAppend<T(!new)>(s: seq<T>, x: T, p: T -> bool)
    ensures Filter(s + [x], p) == Filter(s, p) + (if p(x) then [x] else [])
    decreases |s|
  {
    var t := s + [x];
    if |s| == 0 {
      FilterCons(t, p);
      assert t[1..] == [];
    } else {
      assert t[0] == s[0] && t[1..] == s[1..] + [x];
      FilterAppend(s[1..], x, p);
      FilterCons(t, p);
      FilterCons(s, p);
      Reassociate(if p(s[0]) then [s[0]] else [], Filter(s[1..], p), if p(x) then [x] else []);
    }
  }

  /** Filtering a second time with the same test changes nothing. */
  lemma {:induction false} FilterIdempotent<T(!new)>(s: seq<T>, p: T -> bool)
    ensures Filter(Filter(s, p), p) == Filter(s, p)
    decreases |s|
  {
    if |s| > 0 {
      FilterIdempotent(s[1..], p);
      var rest := Filter(s[1..], p);
      if p(s[0]) {
        assert ([s[0]] + rest)[1..] == rest;
      }
    }
  }

  /** The characters JavaScript writes for a non-negative integer. */
  function DecimalString(n: nat): (r: string)
    ensures |r| > 0
    ensures forall i | 0 <= i < |r| :: '0' <= r[i] <= '9'
    decreases n
  {
    if n < 10 then [DigitChar(n)] else DecimalString(n / 10) + [DigitChar(n % 10)]
  }

  function DigitChar(d: nat): (c: char)
    requires d < 10
    ensures '0' <= c <= '9' && c as int - '0' as int == d
  {
    ('0' as int + d) as char
  }

  function Pow10(k: nat): (p: nat)
    ensures p >= 1
  {
    if k == 0 then 1 else 10 * Pow10(k - 1)
  }

  /** A number below 10^k is written with at most k digits. */
  lemma {:induction false} DecimalLength(n: nat, k: nat)
    requires 1 <= k && n < Pow10(k)
    ensures |DecimalString(n)| <= k
    decreases k
  {
    if n >= 10 {
      assert Pow10(1) == 10;
      assert n / 10 < Pow10(k - 1);
      DecimalLength(n / 10, k - 1);
    }
  }

  /** Reads a run of decimal digits back as a number. */
  function DecimalValue(s: string): (n: nat)
    requires forall i | 0 <= i < |s| :: '0' <= s[i] <= '9'
    decreases |s|
  {
    if |s| == 0 then 0 else 10 * DecimalValue(s[..|s| - 1]) + (s[|s| - 1] as int - '0' as int)
  }

  /** Decimal formatting loses nothing: reading the digits back gives the number. */
  lemma {:induction false} DecimalRoundTrip(n: nat)
    ensures DecimalValue(DecimalString(n)) == n
    decreases n
  {
    if n >= 10 {
      DecimalRoundTrip(n / 10);
      var r := DecimalString(n);
      assert r[..|r| - 1] == DecimalString(n / 10);
    }
  }
}

=== FILE: user_controller.dfy ===
/**
 * controllers/userController.js: profile read and update, the watch history,
 * and the three reference-list mutations with their shared find-or-create of
 * the local Movie mirror.
 *
 * A handler takes the authenticated user's id (what the token middleware puts
 * on the request), the route parameter, the catalog lookup and the clock, and
 * returns the store after the call together with the reply it sends.
 */
module UserController {
  import opened Results
  import opened Text
  import opened Models

  /** The fields of the catalog's movie-detail response the mirror is built from. */
  datatype Detail = Detail(
    id: int,
    title: Option<string>,
    overview: Option<string>,
    releaseDate: Option<string>,
    posterPath: Option<string>,
    backdropPath: Option<string>,
    voteAverage: Option<real>)

  /** The catalog's detail-by-id request; `None` is a request that throws. */
  type Catalog = int -> Option<Detail>

  /** MongoDB `$addToSet`: append when absent, otherwise leave the list alone. */
  function AddToSet(s: seq<ObjectId>, x: ObjectId): (r: seq<ObjectId>)
    ensures x in r
    ensures forall y :: y in r <==> y in s || y == x
    ensures |s| <= |r| <= |s| + 1 && r[..|s|] == s
    ensures x in s ==> r == s
  {
    if x in s then s else s + [x]
  }

  /** MongoDB `$pull`: drop every element equal to `x`, keep the rest in order. */
  function Pull(s: seq<ObjectId>, x: ObjectId): (r: seq<ObjectId>)
    ensures x !in r
    ensures Subsequence(r, s)
    ensures forall y | y != x :: multiset(r)[y] == multiset(s)[y]
    ensures forall y :: y in r <==> y in s && y != x
    ensures x !in s ==> r == s
  {
    if x !in s then FilterKeepsAll(s, Other(x)); Filter(s, Other(x)) else Filter(s, Other(x))
  }

  /** The `$pull` test: every element other than `x` stays. */
  function Other(x: ObjectId): (keep: ObjectId -> bool)
    ensures forall y :: keep(y) <==> y != x
  {
    y => y != x
  }

  /** `$pull` undoes an `$addToSet` of an element that was absent. */
  lemma PullUndoesAddToSet(s: seq<ObjectId>, x: ObjectId)
    requires x !in s
    ensures Pull(AddToSet(s, x), x) == s
  {
    FilterAppend(s, x, Other(x));
    FilterKeepsAll(s, Other(x));
  }

  /** The document `new Movie({...})` builds from a catalog detail. */
  function MirrorOf(d: Detail, id: ObjectId, now: nat): (m: Movie)
    ensures m.id == id && m.tmdbId == d.id
    ensures MovieRequired(m) <==> Truthy(d.title)
  {
    Movie(id, d.id, if d.title.Some? then d.title.value else "", d.overview, d.posterPath,
          d.backdropPath, d.releaseDate, d.voteAverage, now, now)
  }

  datatype MirrorError = FetchFailed | TitleMissing | DuplicateTmdbId

  /** What the find-or-create step did: reused a mirror, created one, or threw. */
  datatype MirrorStep =
    | Reused(ref: ObjectId)
    | Created(store: Db, ref: ObjectId)
    | Failed(error: MirrorError)

  /** The store after the step: only a creation changes it. */
  function StoreAfter(db: Db, step: MirrorStep): Db {
    if step.Created? then step.store else db
  }

  /** `movie.save()` of a new mirror: the document under a fresh reference and its catalog id in the index. */
  function Inserted(db: Db, m: Movie): (db': Db)
    requires Valid(db) && m.id == db.nextId && MovieRequired(m) && m.tmdbId !in db.tmdbIds
    ensures Valid(db')
    ensures db'.users == db.users && db'.emails == db.emails
    ensures db'.movies == db.movies[m.id := m] && m.id !in db.movies
    ensures db'.tmdbIds == db.tmdbIds[m.tmdbId := m.id]
  {
    var db' := db.(movies := db.movies[m.id := m], tmdbIds := db.tmdbIds[m.tmdbId := m.id], nextId := db.nextId + 1);
    assert UsersValid(db') by {
      forall id | id in db'.users ensures RefsResolve(db'.users[id], db'.movies) {
        assert RefsResolve(db.users[id], db.movies);
      }
    }
    db'
  }

  /**
   * `Movie.findOne({ tmdbId })`, and when that finds nothing, the catalog
   * request and `new Movie(...).save()`.  The save can fail the schema
   * (no title) or the unique index (the catalog answered with an id that is
   * already mirrored).
   */
  function FindOrCreateMirror(db: Db, tmdbId: int, catalog: Catalog, now: nat): (step: MirrorStep)
    requires Valid(db)
    ensures step.Reused? <==> tmdbId in db.tmdbIds
    ensures step.Reused? ==> step.ref == db.tmdbIds[tmdbId] && db.movies[step.ref].tmdbId == tmdbId
    ensures step.Failed? <==>
              && tmdbId !in db.tmdbIds
              && (catalog(tmdbId).None? || !Truthy(catalog(tmdbId).value.title)
                  || catalog(tmdbId).value.id in db.tmdbIds)
    ensures step.Created? ==>
              && catalog(tmdbId).Some?
              && Valid(step.store)
              && step.ref !in db.movies
              && step.store.movies.Keys == db.movies.Keys + {step.ref}
              && (forall id | id in db.movies :: step.store.movies[id] == db.movies[id])
              && step.store.movies[step.ref].tmdbId == catalog(tmdbId).value.id
              && step.store.movies[step.ref].title == catalog(tmdbId).value.title.value
              && step.store.users == db.users && step.store.emails == db.emails
    ensures StoreAfter(db, step).users == db.users && StoreAfter(db, step).emails == db.emails
    ensures forall id | id in db.movies :: id in StoreAfter(db, step).movies && StoreAfter(db, step).movies[id] == db.movies[id]
    ensures !step.Failed? ==> step.ref in StoreAfter(db, step).movies
    ensures !step.Failed? ==> Valid(StoreAfter(db, step))
  {
    if tmdbId in db.tmdbIds then Reused(db.tmdbIds[tmdbId])
    else match catalog(tmdbId)
      case None => Failed(FetchFailed)
      case Some(d) =>
        var m := MirrorOf(d, db.nextId, now);
        if !MovieRequired(m) then Failed(TitleMissing)
        else if d.id in db.tmdbIds then Failed(DuplicateTmdbId)
        else Created(Inserted(db, m), db.nextId)
  }

  /** Replacing one user by a document with the same id and email that still passes the schema keeps the store valid. */
  lemma ReplaceUserValid(db: Db, uid: ObjectId, u: User)
    requires Valid(db) && uid in db.users
    requires u.id == uid && u.email == db.users[uid].email
    requires UserRequired(u) && RefsResolve(u, db.movies)
    ensures Valid(db.(users := db.users[uid := u]))
  {
  }

  /** The store after a list handler and the reply it sends: the full populated list, or 500. */
  datatype Outcome = Outcome(db: Db, reply: Result<seq<Movie>>)

  /** The user after `$addToSet` on list `l` (and, for recently watched, `$pull` from currently watching). */
  function Attached(u: User, l: ListName, ref: ObjectId, now: nat): (v: User)
    ensures ListOf(v, l) == AddToSet(ListOf(u, l), ref)
    ensures l == RecentlyWatched ==> v.currentlyWatching == Pull(u.currentlyWatching, ref)
    ensures l != RecentlyWatched ==> forall k: ListName | k != l :: ListOf(v, k) == ListOf(u, k)
    ensures v.favorites == if l == Favorites then AddToSet(u.favorites, ref) else u.favorites
    ensures v.(favorites := u.favorites, currentlyWatching := u.currentlyWatching,
               recentlyWatched := u.recentlyWatched, updatedAt := u.updatedAt) == u
    ensures v.updatedAt == now
  {
    var added := WithList(u, l, AddToSet(ListOf(u, l), ref));
    var pulled := if l == RecentlyWatched then added.(currentlyWatching := Pull(added.currentlyWatching, ref)) else added;
    pulled.(updatedAt := now)
  }

  /**
   * `User.findByIdAndUpdate(userId, update, { new: true }).populate(l)` and the
   * reply built from it.  A missing user comes back as `null`, reading its list
   * throws, and the catch replies 500.
   */
  function Attach(db: Db, uid: ObjectId, l: ListName, ref: ObjectId, now: nat, message: string): (o: Outcome)
    requires Valid(db) && ref in db.movies
    ensures Valid(o.db)
    ensures o.reply.Ok? <==> uid in db.users
    ensures o.reply.Err? ==> o.db == db && o.reply.failure == Failure(500, message)
    ensures o.reply.Ok? ==>
              && o.db == db.(users := db.users[uid := Attached(db.users[uid], l, ref, now)])
              && Expands(o.reply.value, o.db.movies, ListOf(o.db.users[uid], l))
    ensures o.reply.Ok? ==> db.movies[ref] in o.reply.value
    ensures o.db.emails == db.emails && o.db.movies == db.movies && o.db.users.Keys == db.users.Keys
    ensures forall id | id in db.users && id != uid :: o.db.users[id] == db.users[id]
  {
    if uid !in db.users then Outcome(db, Err(Failure(500, message)))
    else
      ReplaceUserFrame(db.users, uid, Attached(db.users[uid], l, ref, now));
      AttachFound(db, uid, l, ref, now)
  }

  /** Writing one user back keeps the set of ids and every other user. */
  lemma ReplaceUserFrame(users: map<ObjectId, User>, uid: ObjectId, u: User)
    requires uid in users
    ensures users[uid := u].Keys == users.Keys
    ensures forall id | id in users && id != uid :: users[uid := u][id] == users[id]
  {
  }

  /** The found-user branch of `Attach`: the update lands and the populated list comes back. */
  function AttachFound(db: Db, uid: ObjectId, l: ListName, ref: ObjectId, now: nat): (o: Outcome)
    requires Valid(db) && ref in db.movies && uid in db.users
    ensures Valid(o.db) && o.reply.Ok?
    ensures o.db == db.(users := db.users[uid := Attached(db.users[uid], l, ref, now)])
    ensures Expands(o.reply.value, o.db.movies, ListOf(o.db.users[uid], l))
    ensures db.movies[ref] in o.reply.value
  {
    var u := Attached(db.users[uid], l, ref, now);
    assert RefsResolve(db.users[uid], db.movies);
    assert RefsResolve(u, db.movies) && Valid(db.(users := db.users[uid := u])) by {
      ReplaceUserValid(db, uid, u);
    }
    var reply := Populate(db.movies, ListOf(u, l));
    assert db.movies[ref] in reply by {
      var k :| 0 <= k < |ListOf(u, l)| && ListOf(u, l)[k] == ref;
      assert reply[k] in reply;
    }
    Outcome(db.(users := db.users[uid := u]), Ok(reply))
  }

  function AddToList(db: Db, uid: ObjectId, l: ListName, movieId: int, catalog: Catalog, now: nat,
                     message: string): (o: Outcome)
    requires Valid(db)
    ensures Valid(o.db)
    ensures o.reply.Ok? <==> !FindOrCreateMirror(db, movieId, catalog, now).Failed? && uid in db.users
    ensures o.reply.Err? ==> o.reply.failure == Failure(500, message) && o.db.users == db.users
    ensures o.reply.Ok? ==> AddedTo(db, o, uid, l, movieId, catalog, now)
    ensures o.db.emails == db.emails && o.db.users.Keys == db.users.Keys
    ensures forall id | id in db.users && id != uid :: o.db.users[id] == db.users[id]
    ensures forall id | id in db.movies :: id in o.db.movies && o.db.movies[id] == db.movies[id]
    ensures uid in db.users ==>
              o.db.users[uid] == if o.reply.Ok?
                                 then Attached(db.users[uid], l, FindOrCreateMirror(db, movieId, catalog, now).ref, now)
                                 else db.users[uid]
  {
    var step := FindOrCreateMirror(db, movieId, catalog, now);
    if step.Failed? then Outcome(db, Err(Failure(500, message)))
    else Attach(StoreAfter(db, step), uid, l, step.ref, now, message)
  }

  /**
   * A successful add: the step resolved a mirror, the user's lists are the
   * `Attached` ones, the mirror is in the reply, and the reply is the whole
   * target list expanded in order.
   */
  ghost predicate AddedTo(db: Db, o: Outcome, uid: ObjectId, l: ListName, movieId: int,
                          catalog: Catalog, now: nat)
    requires Valid(db)
  {
    var step := FindOrCreateMirror(db, movieId, catalog, now);
    && !step.Failed?
    && uid in db.users && uid in o.db.users
    && o.db.users[uid] == Attached(db.users[uid], l, step.ref, now)
    && o.db.movies == StoreAfter(db, step).movies
    && step.ref in o.db.movies
    && o.reply.Ok?
    && o.db.movies[step.ref] in o.reply.value
    && Expands(o.reply.value, o.db.movies, ListOf(o.db.users[uid], l))
  }

  /** POST /favorites/:movieId. */
  function AddToFavorites(db: Db, uid: ObjectId, movieId: int, catalog: Catalog, now: nat): (o: Outcome)
    requires Valid(db)
    ensures Valid(o.db)
    ensures o.reply.Ok? <==> !FindOrCreateMirror(db, movieId, catalog, now).Failed? && uid in db.users
    ensures o.reply.Err? ==> o.reply.failure == Failure(500, "Error adding to favorites")
    ensures o.reply.Err? ==> o.db.users == db.users
    ensures o.reply.Ok? ==> AddedTo(db, o, uid, Favorites, movieId, catalog, now)
    ensures o.reply.Ok? ==>
              var before := db.users[uid];
              var after := o.db.users[uid];
              && before.favorites <= after.favorites
              && |after.favorites| <= |before.favorites| + 1
              && after.currentlyWatching == before.currentlyWatching
              && after.recentlyWatched == before.recentlyWatched
    ensures o.db.emails == db.emails && o.db.users.Keys == db.users.Keys
    ensures forall id | id in db.users && id != uid :: o.db.users[id] == db.users[id]
  {
    var step := FindOrCreateMirror(db, movieId, catalog, now);
    if uid in db.users && !step.Failed? then
      ListGrows(db.users[uid], Favorites, step.ref, now);
      AddToList(db, uid, Favorites, movieId, catalog, now, "Error adding to favorites")
    else
      AddToList(db, uid, Favorites, movieId, catalog, now, "Error adding to favorites")
  }

  /** POST /recently-watched/:movieId: add to recently watched and pull from currently watching. */
  function AddToRecentlyWatched(db: Db, uid: ObjectId, movieId: int, catalog: Catalog, now: nat): (o: Outcome)
    requires Valid(db)
    ensures Valid(o.db)
    ensures o.reply.Ok? <==> !FindOrCreateMirror(db, movieId, catalog, now).Failed? && uid in db.users
    ensures o.reply.Err? ==> o.reply.failure == Failure(500, "Error adding to recently watched")
    ensures o.reply.Err? ==> o.db.users == db.users
    ensures o.reply.Ok? ==> AddedTo(db, o, uid, RecentlyWatched, movieId, catalog, now)
    ensures o.reply.Ok? ==>
              var ref := FindOrCreateMirror(db, movieId, catalog, now).ref;
              var before := db.users[uid];
              var after := o.db.users[uid];
              && ref in after.recentlyWatched
              && ref !in after.currentlyWatching
              && before.recentlyWatched <= after.recentlyWatched
              && (forall r | r != ref :: r in after.currentlyWatching <==> r in before.currentlyWatching)
              && after.favorites == before.favorites
    ensures o.db.emails == db.emails && o.db.users.Keys == db.users.Keys
    ensures forall id | id in db.users && id != uid :: o.db.users[id] == db.users[id]
  {
    var step := FindOrCreateMirror(db, movieId, catalog, now);
    if uid in db.users && !step.Failed? then
      RecentlyWatchedMoves(db.users[uid], step.ref, now);
      AddToList(db, uid, RecentlyWatched, movieId, catalog, now, "Error adding to recently watched")
    else
      AddToList(db, uid, RecentlyWatched, movieId, catalog, now, "Error adding to recently watched")
  }

  /** Marking a title as watched moves it out of currently watching and leaves favorites alone. */
  lemma RecentlyWatchedMoves(u: User, ref: ObjectId, now: nat)
    ensures var v := Attached(u, RecentlyWatched, ref, now);
            && ref in v.recentlyWatched
            && ref !in v.currentlyWatching
            && u.recentlyWatched <= v.recentlyWatched
            && (forall r | r != ref :: r in v.currentlyWatching <==> r in u.currentlyWatching)
            && v.favorites == u.favorites
  {
    var v := Attached(u, RecentlyWatched, ref, now);
    assert v.recentlyWatched == AddToSet(u.recentlyWatched, ref);
  }

  /** POST /currently-watching/:movieId: an add that never pulls anything anywhere. */
  function AddToCurrentlyWatching(db: Db, uid: ObjectId, movieId: int, catalog: Catalog, now: nat): (o: Outcome)
    requires Valid(db)
    ensures Valid(o.db)
    ensures o.reply.Ok? <==> !FindOrCreateMirror(db, movieId, catalog, now).Failed? && uid in db.users
    ensures o.reply.Err? ==> o.reply.failure == Failure(500, "Error adding to currently watching")
    ensures o.reply.Err? ==> o.db.users == db.users
    ensures o.reply.Ok? ==> AddedTo(db, o, uid, CurrentlyWatching, movieId, catalog, now)
    ensures uid in db.users ==>
              var before := db.users[uid];
              var after := o.db.users[uid];
              && before.currentlyWatching <= after.currentlyWatching
              && |after.currentlyWatching| <= |before.currentlyWatching| + 1
              && after.recentlyWatched == before.recentlyWatched
              && after.favorites == before.favorites
    ensures o.db.emails == db.emails && o.db.users.Keys == db.users.Keys
    ensures forall id | id in db.users && id != uid :: o.db.users[id] == db.users[id]
    ensures forall id | id in db.movies :: id in o.db.movies && o.db.movies[id] == db.movies[id]
  {
    var step := FindOrCreateMirror(db, movieId, catalog, now);
    if uid in db.users && !step.Failed? then
      ListGrows(db.users[uid], CurrentlyWatching, step.ref, now);
      AddToList(db, uid, CurrentlyWatching, movieId, catalog, now, "Error adding to currently watching")
    else
      AddToList(db, uid, CurrentlyWatching, movieId, catalog, now, "Error adding to currently watching")
  }

  /** An add to favorites or currently watching grows that list by at most the one reference and touches no other. */
  lemma ListGrows(u: User, l: ListName, ref: ObjectId, now: nat)
    requires l != RecentlyWatched
    ensures var v := Attached(u, l, ref, now);
            && ListOf(u, l) <= ListOf(v, l)
            && |ListOf(v, l)| <= |ListOf(u, l)| + 1
            && forall k: ListName | k != l :: ListOf(v, k) == ListOf(u, k)
  {
  }

  /**
   * DELETE /favorites/:movieId as written: `$pull` of the route parameter
   * itself, taken as a reference.  No mirror is looked up.
   */
  function RemoveFromFavorites(db: Db, uid: ObjectId, movieId: ObjectId, now: nat): (o: Outcome)
    requires Valid(db)
    ensures Valid(o.db)
    ensures o.db.movies == db.movies && o.db.tmdbIds == db.tmdbIds && o.db.emails == db.emails
    ensures o.reply.Ok? <==> uid in db.users
    ensures o.reply.Err? ==> o.db == db && o.reply.failure == Failure(500, "Error removing from favorites")
    ensures o.reply.Ok? ==>
              o.db == db.(users := db.users[uid := db.users[uid].(favorites := Pull(db.users[uid].favorites, movieId),
                                                                  updatedAt := now)])
    ensures o.reply.Ok? ==>
              var before := db.users[uid];
              var after := o.db.users[uid];
              && after.favorites == Pull(before.favorites, movieId)
              && movieId !in after.favorites
              && Subsequence(after.favorites, before.favorites)
              && (forall r | r != movieId :: multiset(after.favorites)[r] == multiset(before.favorites)[r])
              && (movieId !in before.favorites ==> after.favorites == before.favorites)
              && after.currentlyWatching == before.currentlyWatching
              && after.recentlyWatched == before.recentlyWatched
              && Expands(o.reply.value, o.db.movies, after.favorites)
    ensures forall id | id in db.users && id != uid :: o.db.users[id] == db.users[id]
  {
    if uid !in db.users then Outcome(db, Err(Failure(500, "Error removing from favorites")))
    else PullFound(db, uid, movieId, now)
  }

  /** The found-user branch of `RemoveFromFavorites`: the `$pull` lands and the populated list comes back. */
  function PullFound(db: Db, uid: ObjectId, movieId: ObjectId, now: nat): (o: Outcome)
    requires Valid(db) && uid in db.users
    ensures Valid(o.db) && o.reply.Ok?
    ensures o.db == db.(users := db.users[uid := db.users[uid].(favorites := Pull(db.users[uid].favorites, movieId),
                                                                updatedAt := now)])
    ensures Expands(o.reply.value, o.db.movies, o.db.users[uid].favorites)
  {
    var u := db.users[uid];
    var u' := u.(favorites := Pull(u.favorites, movieId), updatedAt := now);
    assert RefsResolve(u', db.movies) && Valid(db.(users := db.users[uid := u'])) by {
      assert RefsResolve(u, db.movies);
      ReplaceUserValid(db, uid, u');
    }
    Outcome(db.(users := db.users[uid := u']), Ok(Populate(db.movies, u'.favorites)))
  }

  /**
   * The DELETE /favorites/:movieId route: the update casts the parameter to
   * an `ObjectId` first, and a parameter that is not one throws into the
   * same catch as a missing user.
   */
  function RemoveFromFavoritesRoute(db: Db, uid: ObjectId, movieId: string, now: nat): (o: Outcome)
    requires Valid(db)
    ensures Valid(o.db)
    ensures o.reply.Ok? <==> CastObjectId(movieId).Some? && uid in db.users
    ensures o.reply.Err? ==> o.db == db && o.reply.failure == Failure(500, "Error removing from favorites")
    ensures o.reply.Ok? ==> o == RemoveFromFavorites(db, uid, CastObjectId(movieId).value, now)
  {
    match CastObjectId(movieId)
    case None => Outcome(db, Err(Failure(500, "Error removing from favorites")))
    case Some(ref) => RemoveFromFavorites(db, uid, ref, now)
  }

  /** GET /favorites: a missing user is read through `null`, which the catch turns into 500. */
  function GetFavorites(db: Db, uid: ObjectId): (r: Result<seq<Movie>>)
    requires Valid(db)
    ensures r.Ok? <==> uid in db.users
    ensures r.Err? ==> r.failure == Failure(500, "Error getting favorites")
    ensures r.Ok? ==> Expands(r.value, db.movies, db.users[uid].favorites)
  {
    if uid !in db.users then Err(Failure(500, "Error getting favorites"))
    else assert RefsResolve(db.users[uid], db.movies); Ok(Populate(db.movies, db.users[uid].favorites))
  }

  /** GET /currently-watching, with the same null-read failure as `GetFavorites`. */
  function GetCurrentlyWatching(db: Db, uid: ObjectId): (r: Result<seq<Movie>>)
    requires Valid(db)
    ensures r.Ok? <==> uid in db.users
    ensures r.Err? ==> r.failure == Failure(500, "Error getting currently watching")
    ensures r.Ok? ==> Expands(r.value, db.movies, db.users[uid].currentlyWatching)
  {
    if uid !in db.users then Err(Failure(500, "Error getting currently watching"))
    else assert RefsResolve(db.users[uid], db.movies); Ok(Populate(db.movies, db.users[uid].currentlyWatching))
  }

  /** GET /watch-history: the bare references of recently watched, not populated. */
  function GetUserWatchHistory(db: Db, uid: ObjectId): (r: Result<seq<ObjectId>>)
    ensures r.Err? <==> uid !in db.users
    ensures r.Err? ==> r.failure == Failure(404, "User not found")
    ensures r.Ok? ==> r.value == db.users[uid].recentlyWatched
  {
    if uid !in db.users then Err(Failure(404, "User not found")) else Ok(db.users[uid].recentlyWatched)
  }

  /** The user document under `.select('-password')`: every path except the password. */
  datatype Profile = Profile(
    id: ObjectId,
    firstName: string,
    lastName: string,
    email: string,
    country: string,
    favorites: seq<ObjectId>,
    currentlyWatching: seq<ObjectId>,
    recentlyWatched: seq<ObjectId>,
    createdAt: nat,
    updatedAt: nat)

  /** GET /profile. */
  function GetUserProfile(db: Db, uid: ObjectId): (r: Result<Profile>)
    ensures r.Err? <==> uid !in db.users
    ensures r.Err? ==> r.failure == Failure(404, "User not found")
    ensures r.Ok? ==>
              var u := db.users[uid];
              r.value == Profile(u.id, u.firstName, u.lastName, u.email, u.country, u.favorites,
                                 u.currentlyWatching, u.recentlyWatched, u.createdAt, u.updatedAt)
  {
    if uid !in db.users then Err(Failure(404, "User not found"))
    else
      var u := db.users[uid];
      Ok(Profile(u.id, u.firstName, u.lastName, u.email, u.country, u.favorites,
                 u.currentlyWatching, u.recentlyWatched, u.createdAt, u.updatedAt))
  }

  /** The PUT /profile body; the client also sends `email`, which the handler never reads. */
  datatype ProfileUpdate = ProfileUpdate(
    firstName: Option<string>,
    lastName: Option<string>,
    email: Option<string>,
    country: Option<string>)

  /** The five fields the PUT /profile reply is built from. */
  datatype ProfileView = ProfileView(id: ObjectId, firstName: string, lastName: string, email: string, country: string)

  datatype ProfileOutcome = ProfileOutcome(db: Db, reply: Result<ProfileView>)

  /** `incoming || current`. */
  function Merge(incoming: Option<string>, current: string): (r: string)
    ensures Truthy(incoming) ==> r == incoming.value
    ensures !Truthy(incoming) ==> r == current
  {
    if Truthy(incoming) then incoming.value else current
  }

  /** PUT /profile: each of the three fields takes the incoming value only when it is truthy. */
  function UpdateUserProfile(db: Db, uid: ObjectId, body: ProfileUpdate, now: nat): (o: ProfileOutcome)
    requires Valid(db)
    ensures Valid(o.db)
    ensures o.reply.Err? <==> uid !in db.users
    ensures o.reply.Err? ==> o.db == db && o.reply.failure == Failure(404, "User not found")
    ensures o.db.movies == db.movies && o.db.emails == db.emails && o.db.users.Keys == db.users.Keys
    ensures o.reply.Ok? ==>
              var before := db.users[uid];
              var after := o.db.users[uid];
              && (Truthy(body.firstName) ==> after.firstName == body.firstName.value)
              && (!Truthy(body.firstName) ==> after.firstName == before.firstName)
              && (Truthy(body.lastName) ==> after.lastName == body.lastName.value)
              && (!Truthy(body.lastName) ==> after.lastName == before.lastName)
              && (Truthy(body.country) ==> after.country == body.country.value)
              && (!Truthy(body.country) ==> after.country == before.country)
              && after == before.(firstName := after.firstName, lastName := after.lastName,
                                  country := after.country, updatedAt := after.updatedAt)
              && (after.updatedAt == now || after == before)
              && (after != before ==> after.updatedAt == now)
              && o.reply.value == ProfileView(uid, after.firstName, after.lastName, before.email, after.country)
    ensures forall id | id in db.users && id != uid :: o.db.users[id] == db.users[id]
  {
    if uid !in db.users then ProfileOutcome(db, Err(Failure(404, "User not found")))
    else
      var v := Updated(db.users[uid], body, now);
      UpdatedValid(db, uid, body, now);
      ReplaceUserFrame(db.users, uid, v);
      assert db.users[uid := v][uid] == v;
      ProfileOutcome(db.(users := db.users[uid := v]), Ok(ProfileView(uid, v.firstName, v.lastName, v.email, v.country)))
  }

  /**
   * The stored user after the merge and `save()`: three fields chosen by
   * `Merge`, and the timestamp refreshed only when one of them changed, since
   * assigning a field its own value does not mark it modified.
   */
  function Updated(u: User, body: ProfileUpdate, now: nat): (v: User)
    ensures Truthy(body.firstName) ==> v.firstName == body.firstName.value
    ensures !Truthy(body.firstName) ==> v.firstName == u.firstName
    ensures Truthy(body.lastName) ==> v.lastName == body.lastName.value
    ensures !Truthy(body.lastName) ==> v.lastName == u.lastName
    ensures Truthy(body.country) ==> v.country == body.country.value
    ensures !Truthy(body.country) ==> v.country == u.country
    ensures v == u.(firstName := v.firstName, lastName := v.lastName, country := v.country, updatedAt := v.updatedAt)
    ensures v.firstName != u.firstName || v.lastName != u.lastName || v.country != u.country ==> v.updatedAt == now
    ensures v.firstName == u.firstName && v.lastName == u.lastName && v.country == u.country ==> v == u
    ensures UserRequired(u) ==> UserRequired(v)
  {
    var merged := u.(firstName := Merge(body.firstName, u.firstName),
                     lastName := Merge(body.lastName, u.lastName),
                     country := Merge(body.country, u.country));
    if merged == u then u else merged.(updatedAt := now)
  }

  /** Replacing a stored user by its update keeps the store valid. */
  lemma UpdatedValid(db: Db, uid: ObjectId, body: ProfileUpdate, now: nat)
    requires Valid(db) && uid in db.users
    ensures Valid(db.(users := db.users[uid := Updated(db.users[uid], body, now)]))
  {
    var u := db.users[uid];
    assert RefsResolve(u, db.movies);
    ReplaceUserValid(db, uid, Updated(u, body, now));
  }

  /** The reply of a profile update is what GET /profile then shows, password and lists aside. */
  lemma UpdateReplyMatchesProfile(db: Db, uid: ObjectId, body: ProfileUpdate, now: nat)
    requires Valid(db)
    ensures var o := UpdateUserProfile(db, uid, body, now);
            var g := GetUserProfile(o.db, uid);
            && (o.reply.Ok? <==> g.Ok?)
            && (o.reply.Ok? ==>
                  o.reply.value == ProfileView(g.value.id, g.value.firstName, g.value.lastName, g.value.email, g.value.country))
  {
  }

  /** After marking a title watched, the watch history ends with the old history and holds the mirror. */
  lemma WatchedShowsInHistory(db: Db, uid: ObjectId, movieId: int, catalog: Catalog, now: nat)
    requires Valid(db)
    ensures var o := AddToRecentlyWatched(db, uid, movieId, catalog, now);
            var h := GetUserWatchHistory(o.db, uid);
            o.reply.Ok? ==>
              && h.Ok?
              && GetUserWatchHistory(db, uid).value <= h.value
              && FindOrCreateMirror(db, movieId, catalog, now).ref in h.value
              && o.db.movies[FindOrCreateMirror(db, movieId, catalog, now).ref].tmdbId
                   == (if movieId in db.tmdbIds then movieId else catalog(movieId).value.id)
  {
  }

  /** Sending the same profile update twice changes nothing the second time, not even the timestamp. */
  lemma UpdateProfileIdempotent(db: Db, uid: ObjectId, body: ProfileUpdate, now: nat, later: nat)
    requires Valid(db)
    ensures var o1 := UpdateUserProfile(db, uid, body, now);
            var o2 := UpdateUserProfile(o1.db, uid, body, later);
            o2 == o1
  {
    if uid in db.users {
      var v := Updated(db.users[uid], body, now);
      var o1 := UpdateUserProfile(db, uid, body, now);
      assert o1.db == db.(users := db.users[uid := v]);
      assert o1.db.users[uid] == v;
      UpdatedTwice(db.users[uid], body, now, later);
      assert o1.db.users[uid := v] == o1.db.users;
      assert o1.db.(users := o1.db.users[uid := v]) == o1.db;
    }
  }

  /** Merging the same body into an already merged user changes nothing. */
  lemma UpdatedTwice(u: User, body: ProfileUpdate, now: nat, later: nat)
    ensures Updated(Updated(u, body, now), body, later) == Updated(u, body, now)
  {
  }

  /**
   * Favoriting the same catalog id twice leaves the favorites as the first
   * call did: the second call resolves the same mirror (or fails, when the
   * catalog answered the first call under another id) and `$addToSet` finds
   * it present.
   */
  lemma {:induction false} AddToFavoritesIdempotent(db: Db, uid: ObjectId, movieId: int, catalog: Catalog,
                                                    now: nat, later: nat)
    requires Valid(db)
    requires uid in db.users
    ensures var o1 := AddToFavorites(db, uid, movieId, catalog, now);
            var o2 := AddToFavorites(o1.db, uid, movieId, catalog, later);
            o2.db.users[uid].favorites == o1.db.users[uid].favorites
  {
    var o1 := AddToFavorites(db, uid, movieId, catalog, now);
    var o2 := AddToFavorites(o1.db, uid, movieId, catalog, later);
    var s1 := FindOrCreateMirror(db, movieId, catalog, now);
    var s2 := FindOrCreateMirror(o1.db, movieId, catalog, later);
    if o1.reply.Ok? && o2.reply.Ok? {
      assert s1.ref in o1.db.users[uid].favorites;
      if s1.Reused? {
        assert o1.db.tmdbIds == db.tmdbIds;
      } else {
        assert s1.Created?;
        assert o1.db.tmdbIds == s1.store.tmdbIds;
        var d := catalog(movieId).value;
        assert s1.store.movies[s1.ref].tmdbId == d.id;
        assert d.id in o1.db.tmdbIds;
        assert movieId in o1.db.tmdbIds;
        assert movieId == d.id;
      }
      assert s2.ref == s1.ref;
    }
  }

  /** The reply of a favorite addition is exactly what a following GET /favorites returns. */
  lemma AddReplyMatchesGet(db: Db, uid: ObjectId, movieId: int, catalog: Catalog, now: nat)
    requires Valid(db)
    ensures var o := AddToFavorites(db, uid, movieId, catalog, now);
            o.reply.Ok? ==> o.reply == GetFavorites(o.db, uid)
  {
    var o := AddToFavorites(db, uid, movieId, catalog, now);
    if o.reply.Ok? {
      ExpandsUnique(GetFavorites(o.db, uid).value, o.reply.value, o.db.movies, o.db.users[uid].favorites);
    }
  }
}

=== FILE: user_home.dfy ===
/**
 * pages/userHome.jsx: the signed-in home page's list state, the favorite and
 * currently-watching toggles' choice of request, and the featured-movie guard.
 */
module UserHome {
  import opened Results
  import opened Text
  import opened Browse
  import Models
  import UserController

  /** The page's list state: `movies`, `filteredMovies`, pagination, search text, featured movie, error. */
  datatype Feed = Feed(
    movies: seq<Listing>,
    filtered: seq<Listing>,
    page: int,
    totalPages: Option<int>,
    query: string,
    featured: Option<Listing>,
    error: Option<string>)

  const LoadError := "Failed to load movies"

  /**
   * `fetchMovies` for the current page, followed by the effect that re-applies
   * the search whenever `movies` changes.  `total_pages` is stored before
   * `results` is read, so a body without results still sets it; on page 1
   * the read of `results` then throws into the catch.
   */
  function FetchMovies(s: Feed, resp: Reply): (t: Feed)
    ensures resp.Thrown? ==> t == s.(error := Some(LoadError))
    ensures resp.NoResults? && s.page == 1 ==> t == s.(totalPages := resp.totalPages, error := Some(LoadError))
    ensures resp.NoResults? && s.page != 1 ==> t == s.(totalPages := resp.totalPages)
    ensures resp.Listed? ==>
              && t.totalPages == resp.data.totalPages && t.page == s.page && t.query == s.query
              && t.error == s.error
    ensures resp.Listed? && s.page == 1 ==> t.movies == First12(resp.data.results)
    ensures resp.Listed? && s.page != 1 ==>
              && t.movies == s.movies + First12(resp.data.results)
              && |t.movies| <= |s.movies| + 12
    ensures resp.Listed? ==> t.filtered == Search(t.movies, t.query)
    ensures resp.Listed? && s.page == 1 && |resp.data.results| > 0 ==> t.featured == Some(resp.data.results[0])
    ensures (!resp.Listed? || s.page != 1 || |resp.data.results| == 0) ==> t.featured == s.featured
  {
    match resp
    case Thrown => s.(error := Some(LoadError))
    case NoResults(total) =>
      if s.page == 1 then s.(totalPages := total, error := Some(LoadError)) else s.(totalPages := total)
    case Listed(data) =>
      var batch := First12(data.results);
      var movies := MergePage(s.movies, s.page, batch);
      var featured := if s.page == 1 && |batch| > 0 then Some(batch[0]) else s.featured;
      s.(movies := movies, filtered := Search(movies, s.query), totalPages := data.totalPages, featured := featured)
  }

  /** A body with neither `results` nor `total_pages` leaves the last page unknown, and load-more stops moving. */
  lemma MissingTotalStopsLoadMore(s: Feed, presses: nat)
    ensures var t := FetchMovies(s, NoResults(None));
            && t.movies == s.movies && t.page == s.page
            && LoadMoreTimes(t.page, t.totalPages, presses) == s.page
  {
    LoadMoreBounded(s.page, None, presses);
  }

  /** A listed page without `total_pages` keeps its results but also stops load-more. */
  lemma ListedWithoutTotalStopsLoadMore(s: Feed, results: seq<Listing>, presses: nat)
    ensures var t := FetchMovies(s, Listed(PageData(results, None)));
            && t.movies == MergePage(s.movies, s.page, First12(results))
            && LoadMoreTimes(t.page, t.totalPages, presses) == s.page
  {
    LoadMoreBounded(s.page, None, presses);
  }

  /** Whatever the fetches deliver, the visible list is always the search applied to all movies. */
  lemma FetchKeepsSearchConsistent(s: Feed, resp: Reply)
    requires s.filtered == Search(s.movies, s.query)
    ensures var t := FetchMovies(s, resp); t.filtered == Search(t.movies, t.query)
    ensures var t := HandleSearch(s, s.query); t == s
  {
  }

  /** `handleSearch` on the page state. */
  function HandleSearch(s: Feed, query: string): (t: Feed)
    ensures t.query == query && t.movies == s.movies
    ensures Blank(query) ==> t.filtered == s.movies
    ensures forall m | m in t.filtered :: m in s.movies
  {
    s.(query := query, filtered := Search(s.movies, query))
  }

  datatype HttpMethod = POST | DELETE

  /** `toggleFavorite`'s choice: DELETE when some favorite mirrors this catalog id, else POST. */
  function FavoriteRequest(favorites: seq<Models.Movie>, movieId: int): (m: HttpMethod)
    ensures m == DELETE <==> exists f | f in favorites :: f.tmdbId == movieId
  {
    if exists f | f in favorites :: f.tmdbId == movieId then DELETE else POST
  }

  /**
   * `toggleCurrentlyWatching`'s choice.  The page works out whether the movie
   * is already shown, but that flag plays no part in the choice: the method is
   * always POST.
   */
  function WatchingRequest(currentlyWatching: seq<Models.Movie>, movieId: int): (m: HttpMethod)
    ensures m == POST
  {
    POST
  }

  /** The page's currently-watching state: its copy of the list and the error banner. */
  datatype Watching = Watching(list: seq<Models.Movie>, error: Option<string>)

  /** The store after a click and the page state after the reply. */
  datatype WatchRound = WatchRound(db: Models.Db, page: Watching)

  /**
   * One click on the currently-watching button: the request `WatchingRequest`
   * chooses, then `setCurrentlyWatching(data.currentlyWatching)` on success or
   * the error message, worded after whether the movie was shown, on failure.
   */
  function ToggleWatching(db: Models.Db, uid: Models.ObjectId, c: Watching, tmdbId: int,
                          catalog: UserController.Catalog, now: nat): (r: WatchRound)
    requires Models.Valid(db)
    ensures Models.Valid(r.db)
    ensures r.db == UserController.AddToCurrentlyWatching(db, uid, tmdbId, catalog, now).db
    ensures r.page.list == c.list || r.page.error == c.error
    ensures var o := UserController.AddToCurrentlyWatching(db, uid, tmdbId, catalog, now);
            o.reply.Ok? ==> r.page == c.(list := o.reply.value) && WatchingInSync(r.db, uid, r.page)
    ensures var o := UserController.AddToCurrentlyWatching(db, uid, tmdbId, catalog, now);
            o.reply.Err? ==>
              && r.page.list == c.list
              && r.page.error == Some(if exists f | f in c.list :: f.tmdbId == tmdbId
                                      then "Failed to remove from currently watching"
                                      else "Failed to add to currently watching")
  {
    var shown := exists f | f in c.list :: f.tmdbId == tmdbId;
    match WatchingRequest(c.list, tmdbId)
    case POST =>
      var o := UserController.AddToCurrentlyWatching(db, uid, tmdbId, catalog, now);
      if o.reply.Ok? then WatchRound(o.db, c.(list := o.reply.value))
      else WatchRound(o.db, c.(error := Some(if shown then "Failed to remove from currently watching"
                                             else "Failed to add to currently watching")))
  }

  /** The page's list is what GET /currently-watching would return. */
  predicate WatchingInSync(db: Models.Db, uid: Models.ObjectId, c: Watching)
    requires Models.Valid(db)
  {
    UserController.GetCurrentlyWatching(db, uid).Ok? && c.list == UserController.GetCurrentlyWatching(db, uid).value
  }

  /**
   * The button cannot take a movie off the list: no stored list of any user
   * loses a reference, and a movie the page showed is still shown after the
   * click, whether the request succeeded or failed.
   */
  lemma WatchingClickNeverRemoves(db: Models.Db, uid: Models.ObjectId, c: Watching, tmdbId: int,
                                  catalog: UserController.Catalog, now: nat)
    requires Models.Valid(db) && WatchingInSync(db, uid, c)
    ensures var r := ToggleWatching(db, uid, c, tmdbId, catalog, now);
            && r.db.users.Keys == db.users.Keys
            && (forall id, l: Models.ListName | id in db.users ::
                  Models.ListOf(db.users[id], l) <= Models.ListOf(r.db.users[id], l))
            && forall m | m in c.list :: m in r.page.list
  {
    StoredListsGrow(db, uid, tmdbId, catalog, now);
    ShownStaysShown(db, uid, c, tmdbId, catalog, now);
  }

  /** An add to currently watching only ever extends stored lists. */
  lemma StoredListsGrow(db: Models.Db, uid: Models.ObjectId, tmdbId: int, catalog: UserController.Catalog, now: nat)
    requires Models.Valid(db)
    ensures var o := UserController.AddToCurrentlyWatching(db, uid, tmdbId, catalog, now);
            && o.db.users.Keys == db.users.Keys
            && forall id, l: Models.ListName | id in db.users ::
                 Models.ListOf(db.users[id], l) <= Models.ListOf(o.db.users[id], l)
  {
    var o := UserController.AddToCurrentlyWatching(db, uid, tmdbId, catalog, now);
    forall id, l: Models.ListName | id in db.users
      ensures Models.ListOf(db.users[id], l) <= Models.ListOf(o.db.users[id], l)
    {
      if id == uid {
        match l
        case Favorites =>
        case CurrentlyWatching =>
        case RecentlyWatched =>
      }
    }
  }

  /** A movie the in-sync page showed is still on the page after the click. */
  lemma ShownStaysShown(db: Models.Db, uid: Models.ObjectId, c: Watching, tmdbId: int,
                        catalog: UserController.Catalog, now: nat)
    requires Models.Valid(db) && WatchingInSync(db, uid, c)
    ensures var r := ToggleWatching(db, uid, c, tmdbId, catalog, now);
            forall m | m in c.list :: m in r.page.list
  {
    ReplyKeepsShown(db, uid, tmdbId, catalog, now);
  }

  /** A successful add replies with every movie GET /currently-watching showed before it. */
  lemma ReplyKeepsShown(db: Models.Db, uid: Models.ObjectId, tmdbId: int, catalog: UserController.Catalog, now: nat)
    requires Models.Valid(db) && uid in db.users
    ensures var o := UserController.AddToCurrentlyWatching(db, uid, tmdbId, catalog, now);
            o.reply.Ok? ==> forall m | m in UserController.GetCurrentlyWatching(db, uid).value :: m in o.reply.value
  {
    var o := UserController.AddToCurrentlyWatching(db, uid, tmdbId, catalog, now);
    if o.reply.Ok? {
      Models.ExpandsPrefix(UserController.GetCurrentlyWatching(db, uid).value, db.movies, db.users[uid].currentlyWatching,
                           o.reply.value, o.db.movies, o.db.users[uid].currentlyWatching);
    }
  }

  /** `updateFeaturedMovie`: only a movie with a non-empty title replaces the featured one. */
  function UpdateFeatured(current: Option<Listing>, movie: Option<Listing>): (r: Option<Listing>)
    ensures movie.Some? && movie.value.title != "" ==> r == movie
    ensures movie.None? || movie.value.title == "" ==> r == current
  {
    if movie.Some? && movie.value.title != "" then movie else current
  }

  /**
   * The guard keeps a titled featured movie titled whatever is offered, and
   * offering the same movie twice is offering it once.
   */
  lemma UpdateFeaturedKeepsTitle(current: Option<Listing>, movie: Option<Listing>)
    ensures current.Some? && current.value.title != "" ==>
              var r := UpdateFeatured(current, movie); r.Some? && r.value.title != ""
    ensures UpdateFeatured(UpdateFeatured(current, movie), movie) == UpdateFeatured(current, movie)
  {
  }
}
